=== FILE: README.md ===
# Website change crawler: a Dafny model

The repository crawls a list of websites with a headless browser and records
what changes on them. Three pieces of it are modelled here, with the browser,
the clock and the random draws replaced by given inputs:

- **crawler3.py**. Reads the list of target sites and derives a screenshot
  directory for each. Then, for a fixed time, it reloads the site again and
  again. It appends a change record, and writes a numbered screenshot, every
  time the page content, scripts, network entries or URL differ from the last
  recorded values (`monitor_page_changes`). The time budget becomes a finite
  sequence of observations. A navigation error ends the loop; any other fault
  ends the whole call.
- **Crawler.py**. Makes 5 to 10 passes, clicking a random element in each
  when it is visible and enabled (`simulate_clicks`). After each click it handles new tabs and in-place
  redirections (`handle_redirection_or_new_tab`): it records and closes each
  new tab, and records the original page and sends it back. It then records
  the page after the click (`monitor_changes`). Records hold the first 200
  characters of the captured HTML, scripts and style sheets. Each round of the
  loop is given as a `Round` value:
  - the elements found and the one picked;
  - the pages of the browsing context with their URLs;
  - what each capture returns;
  - which step raises, if any.

  `Pass` turns a round into the outcome of its pass. `ClickLoop` runs over
  the outcomes in order and stops at the first one that stops the loop.
- **Server.py**. The demonstration page. Each `/update` request swaps the two
  strings of a module-level list and returns the new first one. The script
  embedded in the page calls `/update` at most `maxChanges` = 5 times.

Modules:
- `Names` (names.dfy): the filename sanitiser, Python's `str.replace`, both
  directory-name expressions, and the screenshot names `0.png`, `1.png`, ...
- `Targets` (targets.dfy): `str.strip` and the two readings of the target file.
- `PageMonitor` (page_monitor.dfy): the change-detection loop of crawler3.py.
- `ClickSession` (click_session.dfy): `monitor_changes`, the redirection
  handler, the click loop and `monitor_website` of Crawler.py.
- `ContentServer` (content_server.dfy): Server.py's swap and the page
  script's counter.

Behaviours of the code worth knowing:
- **Click records are unconditional.** Crawler.py appends the post-click
  record after every performed click, with no comparison against earlier
  content (Crawler.py:126-128). So consecutive records of a click session may
  be identical. Only crawler3.py's loop compares snapshots.
- **Hidden elements use up a pass.** A chosen element that is hidden or
  disabled still uses one pass of `for i in range(num_clicks)`
  (Crawler.py:110-119; see `SkippedElementUsesPass`).
- **The comparison URL is read after the click.** The handler takes
  `initial_url` when it starts, which is after the click has returned
  (Crawler.py:70, called at 124), not before the click.
- **A failed capture still adds a record.** A capture fault gives the empty
  record, and callers append it anyway (Crawler.py:63-66, 85, 93, 128).
- **No per-click limit.** One click can add more than two records: one per
  new tab, one for a redirection, and the click record
  (`TwoNewTabsGiveThreeRecords`). The general bound is one more than the
  number of listed pages per click (`ClickBlock`, `SimulateClicks`).
- **Crawler.py keeps blank lines.** It strips the lines of its target file
  but does not drop the blank ones (Crawler.py:164). crawler3.py does drop
  them (crawler3.py:90). `ParseTargetsIsFilteredStripLines` relates the two.
- **Setup and cleanup failures escape.** Launching the browser, opening the
  page and creating the screenshot directory come before the `try` of
  `monitor_website` (Crawler.py:141-147). Closing the browser in the
  `finally` and leaving the `async with` come after its `except`
  (Crawler.py:141, 158-159). So a raise in either group is not caught
  (`MonitorWebsite` returns `Aborted`).
- **The directory name is not injective.** `http://h` and `https://h` get the
  same screenshot directory in both files (`DirNamesNotInjective`).

## Model

| member | source | states |
|---|---|---|
| Names.Sanitize | crawler3.py:22-24 | Same length; each character is kept when alphanumeric, a space or `_`, and becomes `_` otherwise; the result is all safe characters |
| Names.SanitizeFixesExactlySafe | crawler3.py:24 | The sanitiser leaves a string unchanged exactly when it already holds only safe characters |
| Names.SanitizeIdempotent | crawler3.py:24 | Sanitising twice equals sanitising once |
| Names.ReplaceAll | crawler3.py:95 | `str.replace` with a non-empty pattern never lengthens the string when the replacement is no longer than the pattern |
| Names.ReplaceAllChars | crawler3.py:95 | Every character of a replaced string comes from the input or from the replacement |
| Names.ReplaceCharIsPointwise | crawler3.py:95 | Replacing one character by another keeps the length and maps each position on its own |
| Names.ReplaceCharRemovesIt | Crawler.py:146 | After `.replace('/', '_')` no `/` is left |
| Names.ReplaceAbsentIsIdentity | Crawler.py:146 | A string lacking a character of the pattern contains no occurrence of it, and replacing leaves it unchanged |
| Names.ReplaceAllSkipPrefix | crawler3.py:95 | A prefix in which no occurrence of the pattern starts is copied unchanged |
| Names.ReplaceAllFront | crawler3.py:95 | Unfolding step: a pattern at the front is replaced and the rest is processed on its own |
| Names.SiteDirName | crawler3.py:95 | crawler3.py's directory name holds only safe characters, no `/`, and is no longer than the URL |
| Names.ScreenshotDirName | Crawler.py:146 | Crawler.py's directory name has no `/`, no `http://` or `https://` occurrence, is no longer than the URL, and its characters come from the URL or are `_` |
| Names.HttpNotInHttps | Crawler.py:146 | Removing `http://` leaves a leading `https://` in place |
| Names.HttpsNotInHttp | crawler3.py:95 | Removing `https://` leaves a leading `http://` in place |
| Names.SchemesRemovedHttps | crawler3.py:95 | Removing both schemes, in either order, from `https://` plus a host without `/` gives the host |
| Names.SchemesRemovedHttp | Crawler.py:146 | The same for `http://` |
| Names.SiteDirStripsHttps | crawler3.py:95 | For `https://` plus a host without `/`, crawler3.py's directory is the sanitised host |
| Names.SiteDirStripsHttp | crawler3.py:95 | For `http://` plus a host without `/`, crawler3.py's directory is the sanitised host |
| Names.ScreenshotDirStripsHttps | Crawler.py:146 | For `https://` plus a host without `/`, Crawler.py's directory is the host itself |
| Names.ScreenshotDirStripsHttp | Crawler.py:146 | For `http://` plus a host without `/`, Crawler.py's directory is the host itself |
| Names.DirNamesNotInjective | crawler3.py:95 | The two schemes of one host are different targets with the same directory, in both files |
| Names.Decimal | crawler3.py:65 | `str(n)` is a non-empty string of digits; it starts with `0` exactly when `n` is 0 |
| Names.DecimalRoundTrip | crawler3.py:65 | Reading `str(n)` back as a number gives `n` |
| Names.CanonicalRoundTrip | crawler3.py:65 | Every digit string without a leading zero, and `0` itself, is `str` of the number it reads as |
| Names.ScreenshotName | crawler3.py:65 | The `n`-th screenshot's name is a string of decimal digits that reads back as `n`, followed by `.png`; the only name that starts with `0` is `0.png` |
| Names.ScreenshotNamesDistinct | crawler3.py:65-67 | `m.png` and `n.png` are equal exactly when `m == n` |
| Targets.TrimStartDropsSpace | crawler3.py:90 | Stripping leading whitespace keeps a suffix and removes only whitespace |
| Targets.TrimEndDropsSpace | crawler3.py:90 | Stripping trailing whitespace removes only whitespace |
| Targets.Strip | crawler3.py:90 | The stripped line is no longer than the line and has no whitespace at either end |
| Targets.StripIsTrimmedSlice | crawler3.py:90 | The stripped line is a slice of the line with only whitespace on both sides |
| Targets.StripEmptyIffBlank | crawler3.py:90 | A line strips to the empty string exactly when it is all whitespace |
| Targets.StrippedIsFixed | crawler3.py:90 | A string without whitespace at its ends is its own strip |
| Targets.StripIdempotent | crawler3.py:90 | Stripping twice equals stripping once |
| Targets.ParseTargets | crawler3.py:90 | Every entry of the website list is non-empty and stripped, and there are no more entries than lines |
| Targets.KeptFrom | crawler3.py:90 | The indices of the non-blank lines, strictly increasing |
| Targets.KeptFromComplete | crawler3.py:90 | Every non-blank line's index is among them |
| Targets.ParseFromKeepsOrder | crawler3.py:90 | From any line on, the list is the stripped non-blank lines in file order |
| Targets.ParseTargetsKeepsOrder | crawler3.py:90 | The website list is exactly the stripped non-blank lines, in file order |
| Targets.StripLines | Crawler.py:164 | Crawler.py's list has one entry per line, and entry `k` is line `k` stripped |
| Targets.ParseTargetsIsFilteredStripLines | crawler3.py:90 | crawler3.py's list is Crawler.py's list with the empty entries removed |
| PageMonitor.Baseline | crawler3.py:34 | The initial baseline is empty content at the target URL: a snapshot differs from it exactly when it has some content or a different URL |
| PageMonitor.Differs | crawler3.py:52-53 | Comparing the four fields is the same as comparing whole snapshots |
| PageMonitor.FirstObservationRecorded | crawler3.py:34-63 | The first pass records its snapshot exactly when it has some content or has left the target URL |
| PageMonitor.Start | crawler3.py:33-35 | The loop starts with no records and the counter at 0 |
| PageMonitor.Step | crawler3.py:52-69 | A record is appended iff some field differs from the baseline; then the counter and the screenshot names advance by one and the baseline becomes the snapshot; otherwise nothing changes |
| PageMonitor.Run | crawler3.py:42-79 | The loop keeps earlier records and adds at most one per observation |
| PageMonitor.MonitorPageChanges | crawler3.py:77-83 | The result is a one-key map from the target to at most one record per observation |
| PageMonitor.StepKeepsValid | crawler3.py:63-69 | One pass keeps the invariant: counter and screenshot names match the records, the baseline is the last record, consecutive records differ |
| PageMonitor.RunKeepsValid | crawler3.py:42-79 | The whole loop keeps that invariant |
| PageMonitor.MonitorInvariants | crawler3.py:63-69 | After any run the counter equals the number of records, consecutive records differ, and screenshot names are pairwise distinct |
| PageMonitor.RepeatedObservationIsNoOp | crawler3.py:52-69 | The same snapshot observed twice in a row adds nothing the second time |
| PageMonitor.ErrorEndsLoop | crawler3.py:77-79 | A navigation error or fault ends the loop: later observations have no effect |
| PageMonitor.MonitorKeepsRecordsBeforeError | crawler3.py:77-83 | The result equals that of the observations before the first error |
| PageMonitor.RunSnoc | crawler3.py:42-69 | One more error-free observation is one more pass |
| PageMonitor.RunMatchesExpected | crawler3.py:34-69 | Without errors the records are exactly the observations that differ from the observation before them (from the empty baseline at the target URL for the first), and the baseline ends as the last observation |
| ClickSession.Snippet | Crawler.py:58-60 | A snippet is a prefix of the captured text of length min(200, length) |
| ClickSession.MonitorChanges | Crawler.py:44-66 | The record is empty exactly when a capture step failed. Otherwise it carries the capture's time and URL and the given description. Each snippet is the first 200 characters of the captured HTML, scripts and style sheets |
| ClickSession.Fields | Crawler.py:54-61 | The dict is empty for the empty record. Otherwise it has exactly the six keys, each holding the record's matching field |
| ClickSession.RecordShape | Crawler.py:46-66 | Each record is `{}` on a capture fault. Otherwise it has exactly the six keys: the capture's time and URL, the description, and the first 200 characters of each captured text |
| ClickSession.Description | Crawler.py:84-126 | A description ends with the element's text, after a phrase naming the trigger |
| ClickSession.DescriptionInjective | Crawler.py:84-126 | Two descriptions are equal exactly when they have the same trigger and the same element text |
| ClickSession.CollectPages | Crawler.py:75-77 | The page list keeps its prefix, and each added page comes from the context with a URL other than the one read at entry |
| ClickSession.CollectPagesDistinct | Crawler.py:76 | The `not in pages` test keeps the list free of repeated pages |
| ClickSession.CollectPagesComplete | Crawler.py:75-77 | Every context page whose URL moved ends up listed, and listed pages stay listed |
| ClickSession.CollectPagesSkip | Crawler.py:76 | Unfolding step: a context page still at the entry URL is not added |
| ClickSession.CollectPagesAdd | Crawler.py:76-77 | Unfolding step: a moved context page that is not listed yet is appended |
| ClickSession.PageList | Crawler.py:74-77 | The list starts with the original page, repeats no page, holds only moved context pages after it, and holds every moved context page |
| ClickSession.Visit | Crawler.py:79-102 | The handler's second loop records no more pages than moved, at most as many redirections as listings of the original, and no click record |
| ClickSession.VisitUnfold | Crawler.py:80-97 | Unfolding step: a moved page yields its record, then its close (new tab) or its return (original page) |
| ClickSession.VisitWithoutFaults | Crawler.py:79-97 | Without faults, one record per listed page whose URL moved, and one redirection per moved listing of the original |
| ClickSession.VisitEventsFit | Crawler.py:81-93 | New-tab records are about other pages, redirection records about the original, and each filled record carries its trigger's description |
| ClickSession.HandleRedirectionOrNewTab | Crawler.py:68-102 | At most one record per listed page, at most one redirection record, no click record |
| ClickSession.HandlerRecordsEveryMovedPage | Crawler.py:79-97 | Without faults, exactly one record per listed page whose URL moved |
| ClickSession.RedirectionIffOriginalMoved | Crawler.py:74-97 | Without faults, the original page is recorded as a redirection exactly when its own URL moved |
| ClickSession.ClickBlock | Crawler.py:124-128 | A performed click yields the handler's events for the page, then one click record. That record is the capture after the click, described "Clicked on element: " plus the element's text. A block has at most one redirection and at most one more record than listed pages |
| ClickSession.Pass | Crawler.py:110-136 | One pass adds at most one well-formed block. No candidates or a failed query stops the loop without a block; a failed click stops it too. A clickable element is clicked, its block is that click's block, and the loop goes on. A raise after the records of a visible, enabled pick stops the loop with that click's block kept |
| ClickSession.Passes | Crawler.py:110-136 | Pass `k` reads round `k`; each outcome holds at most one block, and a stop names an ending other than running out of passes |
| ClickSession.ClickLoop | Crawler.py:110-136 | Given each pass's outcome, the loop from pass `i` makes at most `n - i` passes and keeps at most one block per pass. It ends by running out of passes only after all `n - i`. It runs them all when every pass goes on with one block |
| ClickSession.ClickLoopWellFormed | Crawler.py:110-128 | When every pass leaves well-formed blocks, every block of the session is well formed |
| ClickSession.ClickLoopRecordsBounded | Crawler.py:110-128 | When pass `k` appends no more records than round `k` allows, the session appends no more than the sum of those budgets |
| ClickSession.PassesFacts | Crawler.py:110-128 | Each pass leaves well-formed blocks within its round's record budget, and a clickable pass leaves one block and goes on |
| ClickSession.SimulateClicks | Crawler.py:104-137 | At most `num_clicks` passes with well-formed blocks. The records are within budget. All `num_clicks` passes run when every pass is clickable |
| ClickSession.StopEndsLoop | Crawler.py:113-115 | A pass that stops without a block ends the loop: the session's blocks are those of the passes before it, after at most `j - i + 1` passes |
| ClickSession.NoCandidatesEndsLoop | Crawler.py:110-115 | A pass `j` with no clickable elements ends the session: its blocks are those of the `j` passes before it, after at most `j + 1` passes |
| ClickSession.SkippedElementUsesPass | Crawler.py:110-119 | A hidden or disabled pick adds nothing but uses up one pass |
| ClickSession.CleanStep | Crawler.py:118-128 | A clickable pass puts the block of its click in front of the later passes' blocks |
| ClickSession.ContinuedBlocks | Crawler.py:110-128 | When every pass from `i` on goes on with one block, the session holds exactly those blocks, in pass order |
| ClickSession.CleanLoopBlocks | Crawler.py:110-128 | When every pass from `i` on is clickable, the session holds one block per pass, and block `k` is the click on the element chosen in pass `i + k` |
| ClickSession.CleanSessionBlocks | Crawler.py:104-128 | A session whose every pass is clickable holds `num_clicks` blocks, and block `k` is the click on the element chosen in pass `k` |
| ClickSession.OneClickRecordPerBlock | Crawler.py:124-128 | A block holds exactly one click record |
| ClickSession.ClickRecordsAreClicks | Crawler.py:126-128 | A session holds one click record per performed click |
| ClickSession.CleanSessionRecordsEveryClick | Crawler.py:106-128 | When every pass meets a clickable element and nothing raises, all `num_clicks` passes run and leave `num_clicks` click records |
| ClickSession.TwoNewTabsPageList | Crawler.py:74-77 | A click that opens two tabs elsewhere lists the original page and both tabs |
| ClickSession.TwoNewTabsGiveThreeRecords | Crawler.py:79-128 | Such a click adds three records |
| ClickSession.MonitorWebsite | Crawler.py:139-159 | A raise while launching, opening the page or creating the directory, or while closing the browser and leaving the `async with`, escapes the call. Otherwise the site's directory has no `/` and is no longer than the URL. No session runs when the first navigation fails; otherwise the session makes at most `num_clicks` passes |
| ClickSession.MonitoredSiteClicksEveryPass | Crawler.py:146-154 | A reachable site whose every pass meets a clickable element runs all `num_clicks` passes in the directory named after its URL and leaves one click record per pass |
| ContentServer.Update | Server.py:70-73 | `update` returns the string that was second, now first, and the list keeps its two strings |
| ContentServer.UpdateTwiceRestores | Server.py:72 | Two updates restore the list |
| ContentServer.Serve | Server.py:70-73 | `k` requests give `k` responses, and the last response is the first string of the final list |
| ContentServer.ServeKeepsStrings | Server.py:72 | After any number of updates the list holds the two strings it started with |
| ContentServer.ServeFinal | Server.py:72 | After an even number of updates the list is as it was; after an odd number it is swapped |
| ContentServer.ServeAlternates | Server.py:72-73 | The responses alternate: the list's second string, then its first, and so on |
| ContentServer.InitialResponses | Server.py:72-73 | From `["First content", "Second content"]` the responses are "Second content", "First content", ... |
| ContentServer.StartUpdating | Server.py:34-40 | Below 5 it fetches, counts one more and schedules the next call. At 5 it neither fetches nor schedules, and the count stays |
| ContentServer.Calls | Server.py:34-40 | The script stops rescheduling only once the counter has reached 5 |
| ContentServer.CallsBounded | Server.py:34-40 | Over any number of timer calls the script fetches `min(k, 5 - count)` times and the counter never passes 5 |
| ContentServer.PageFetchesAtMostFive | Server.py:20-40 | A loaded page fetches at most 5 times and its counter never passes 5 |
| ContentServer.PageShowsAlternatingContent | Server.py:26-40 | A page served alone shows at most five texts, alternating from "Second content" |

## Left out

- The browser calls are replaced by given inputs: navigation, content and script reads, element queries, clicks, visibility tests, waits, tab closing, going back, and screenshots. Screenshot files are modelled only by their names in crawler3.py. Crawler.py's screenshot names carry a wall-clock timestamp and are not modelled.
- Wall-clock time is not modelled: `MONITOR_DURATION`, `SLEEP_DURATION`, the waits of 5 and 2 seconds, the timer intervals of the page script, and the timestamps. The time budget of crawler3.py is the length of the observation sequence. Timestamps are part of each observation or capture.
- `random.randint` and `random.choice` are parameters: a given `ClickCount` in 5..10, and a given `choice` index.
- Concurrency is not modelled. `asyncio.gather` runs the sites of Crawler.py concurrently and interleaves their appends to the global `changes_data`. A session's contribution is modelled as its own ordered record list (`SessionRecords`).
- Files and I/O are not modelled: reading the target file (a given sequence of lines), `json.dump`, `os.makedirs`, logging, `webbrowser.open`, the welcome prints, the Flask routing and template rendering, and the script's console-log injection. `monitor_websites_from_file` only loops over the parsed list and collects each site's one-key map, so it is not modelled beyond `ParseTargets`, `SiteDirName` and `MonitorPageChanges`.
- Names.IsAlnum: Python's `str.isalnum` accepts every Unicode letter and digit, and this model accepts only the ASCII ones.
- Targets.IsSpace: Python's `str.strip` removes Unicode whitespace, and this model removes only ASCII whitespace (space, 9 to 13, and 28 to 31).
- ClickSession.HandleRedirectionOrNewTab: an exception raised by the handler's first wait (Crawler.py:72) would end it with no records. The model has no input for that fault.
- ClickSession.Visit: page URLs are read once per round. Changes of a URL between the list-building loop and the recording loop of one handler call are not modelled.
- ClickSession.MonitorWebsite: three given flags replace the browser. The first says whether launching the browser, opening the page and creating the directory succeed (Crawler.py:141-147). The second says whether the first navigation succeeds. The third says whether closing the browser in the `finally` and leaving the `async with` succeed (Crawler.py:141, 158-159). A raise in the first or third group escapes `monitor_website` and, through `asyncio.gather`, ends `main` before the change file is written; `main` is not modelled, so the model stops at `Aborted`. An exception from `simulate_clicks` itself is not distinguished, since `simulate_clicks` catches everything.
- ContentServer.Calls: the fetch is asynchronous and several pages may call `/update` at once. The model counts one page's calls and serves them from one list. `PageShowsAlternatingContent` assumes no other client updates the list meanwhile.
- Test Server.py is a separate variant of the server and is not part of this model.

=== FILE: click_session.dfy ===
/** The click session of Crawler.py: random clicks on a page, the handling of
    in-place redirections and new tabs after each click, and the change
    records appended to the shared change list.

    The browser is replaced by given inputs. Each loop pass reads one `Round`:
    the clickable elements found, which one `random.choice` picked, the URLs
    of the pages of the browsing context, what each capture of a page
    returned, and which step (if any) raised. `random.randint(5, 10)` is the
    given `ClickCount`. Timestamps are part of what a capture returns. */
module ClickSession {
  import Names

  /** Captured content is cut to its first 200 characters. */
  const SnippetLength := 200

  /** Python's `s[:200]`. */
  function Snippet(s: string): (r: string)
    ensures r <= s
    ensures |r| == if |s| < SnippetLength then |s| else SnippetLength
  {
    if |s| <= SnippetLength then s else s[..SnippetLength]
  }

  /** What reading a page returned: its content, scripts, style sheets and URL
      with the time of reading, or a fault raised by one of the reads. */
  datatype Capture =
    | Captured(timestamp: string, html: string, js: string, css: string, url: string)
    | CaptureFault

  /** A change record: the empty dict or a dict with six fields. */
  datatype Record =
    | Empty
    | Entry(timestamp: string, description: string, url: string,
            htmlSnippet: string, jsSnippet: string, cssSnippet: string)

  /** `monitor_changes`: a record of the captured page, or the empty record
      when any read failed. */
  function MonitorChanges(c: Capture, description: string): (r: Record)
    ensures r.Empty? <==> c.CaptureFault?
    ensures r.Entry? ==>
      && r.timestamp == c.timestamp && r.description == description && r.url == c.url
      && r.htmlSnippet == Snippet(c.html) && r.jsSnippet == Snippet(c.js)
      && r.cssSnippet == Snippet(c.css)
  {
    match c
    case CaptureFault => Empty
    case Captured(t, html, js, css, url) =>
      Entry(t, description, url, Snippet(html), Snippet(js), Snippet(css))
  }

  const RecordKeys: set<string> :=
    {"timestamp", "click_description", "url", "html_snippet", "js_snippet", "css_snippet"}

  /** The record as the dict that is written to the change file. */
  function Fields(r: Record): (d: map<string, string>)
    ensures r.Empty? <==> d == map[]
    ensures r.Entry? ==> d.Keys == RecordKeys
    ensures r.Entry? ==> d["click_description"] == r.description && d["url"] == r.url
    ensures r.Entry? ==>
      && d["timestamp"] == r.timestamp && d["html_snippet"] == r.htmlSnippet
      && d["js_snippet"] == r.jsSnippet && d["css_snippet"] == r.cssSnippet
  {
    match r
    case Empty => map[]
    case Entry(t, desc, url, html, js, css) =>
      var d := map["timestamp" := t, "click_description" := desc, "url" := url,
          "html_snippet" := html, "js_snippet" := js, "css_snippet" := css];
      assert "url" in d;
      d
  }

  /** Every record is empty or has exactly the six keys, holding the capture's
      time and URL, the description, and the first 200 characters of each
      captured text. */
  lemma RecordShape(c: Capture, description: string)
    ensures var d := Fields(MonitorChanges(c, description));
      && (d == map[] <==> c.CaptureFault?)
      && (c.Captured? ==>
            && d.Keys == RecordKeys
            && d["timestamp"] == c.timestamp && d["url"] == c.url
            && d["click_description"] == description
            && d["html_snippet"] == Snippet(c.html)
            && d["js_snippet"] == Snippet(c.js)
            && d["css_snippet"] == Snippet(c.css))
  {
  }

  /** A page of the browsing context: an identity and its current URL. */
  datatype Tab = Tab(id: nat, url: string)

  predicate Listed(id: nat, pages: seq<Tab>) {
    exists i :: 0 <= i < |pages| && pages[i].id == id
  }

  predicate DistinctIds(pages: seq<Tab>) {
    forall i, j :: 0 <= i < j < |pages| ==> pages[i].id != pages[j].id
  }

  /** The loop of `handle_redirection_or_new_tab` that builds the page list:
      a context page is appended when its URL differs from the URL read at
      entry and it is not listed yet. */
  function CollectPages(pages: seq<Tab>, context: seq<Tab>, initialUrl: string): (r: seq<Tab>)
    ensures |pages| <= |r| <= |pages| + |context|
    ensures r[..|pages|] == pages
    ensures forall i :: |pages| <= i < |r| ==> r[i].url != initialUrl && r[i] in context
    decreases |context|
  {
    if context == [] then pages
    else
      var t := context[0];
      var next := if t.url != initialUrl && !Listed(t.id, pages) then pages + [t] else pages;
      var r := CollectPages(next, context[1..], initialUrl);
      assert r[..|pages|] == r[..|next|][..|pages|];
      assert forall u :: u in context[1..] ==> u in context;
      assert |next| > |pages| ==> r[|pages|] == r[..|next|][|pages|] == t;
      r
  }

  /** A page list without repeated pages keeps none. */
  lemma {:induction false} CollectPagesDistinct(pages: seq<Tab>, context: seq<Tab>, initialUrl: string)
    requires DistinctIds(pages)
    ensures DistinctIds(CollectPages(pages, context, initialUrl))
    decreases |context|
  {
    if context != [] {
      var t := context[0];
      var next := if t.url != initialUrl && !Listed(t.id, pages) then pages + [t] else pages;
      ListedAfterAppend(pages, t);
      CollectPagesDistinct(next, context[1..], initialUrl);
    }
  }

  /** Every context page whose URL moved ends up listed, and listed pages
      stay listed. */
  lemma {:induction false} CollectPagesComplete(pages: seq<Tab>, context: seq<Tab>, initialUrl: string)
    ensures var r := CollectPages(pages, context, initialUrl);
      && (forall t :: t in context && t.url != initialUrl ==> Listed(t.id, r))
      && (forall id :: Listed(id, pages) ==> Listed(id, r))
    decreases |context|
  {
    if context != [] {
      var t := context[0];
      var next := if t.url != initialUrl && !Listed(t.id, pages) then pages + [t] else pages;
      ListedAfterAppend(pages, t);
      CollectPagesComplete(next, context[1..], initialUrl);
      assert CollectPages(pages, context, initialUrl) == CollectPages(next, context[1..], initialUrl);
      assert forall u :: u in context ==> u == t || u in context[1..];
    }
  }

  /** A context page that stays out of the page list. */
  lemma CollectPagesSkip(pages: seq<Tab>, t: Tab, rest: seq<Tab>, initialUrl: string)
    requires t.url == initialUrl
    ensures CollectPages(pages, [t] + rest, initialUrl) == CollectPages(pages, rest, initialUrl)
  {
    assert ([t] + rest)[1..] == rest;
  }

  /** A context page that joins the page list. */
  lemma CollectPagesAdd(pages: seq<Tab>, t: Tab, rest: seq<Tab>, initialUrl: string)
    requires t.url != initialUrl && forall i :: 0 <= i < |pages| ==> pages[i].id != t.id
    ensures CollectPages(pages, [t] + rest, initialUrl) == CollectPages(pages + [t], rest, initialUrl)
  {
    assert ([t] + rest)[1..] == rest;
  }

  /** Appending a page keeps every listed page listed and lists the new one. */
  lemma ListedAfterAppend(pages: seq<Tab>, t: Tab)
    ensures forall id :: Listed(id, pages) ==> Listed(id, pages + [t])
    ensures Listed(t.id, pages + [t])
    ensures !Listed(t.id, pages) && DistinctIds(pages) ==> DistinctIds(pages + [t])
  {
    forall id | Listed(id, pages)
      ensures Listed(id, pages + [t])
    {
      var i :| 0 <= i < |pages| && pages[i].id == id;
      assert (pages + [t])[i] == pages[i];
    }
    assert (pages + [t])[|pages|] == t;
  }

  /** The page list: the original page first, then the context pages whose
      URL moved away from the URL read at entry, each page once. */
  function PageList(original: Tab, context: seq<Tab>, initialUrl: string): (r: seq<Tab>)
    ensures 1 <= |r| <= 1 + |context|
    ensures r[0] == original
    ensures DistinctIds(r)
    ensures forall i :: 0 < i < |r| ==> r[i].url != initialUrl && r[i] in context
    ensures forall t :: t in context && t.url != initialUrl ==> Listed(t.id, r)
  {
    CollectPagesComplete([original], context, initialUrl);
    CollectPagesDistinct([original], context, initialUrl);
    CollectPages([original], context, initialUrl)
  }

  /** Where handling a listed page raised: waiting for a new tab to load
      (before its record), or closing it / going back (after its record). */
  datatype TabFault = NoFault | LoadFault | CleanupFault

  /** What the pages of the context return when captured, and which of
      them raise, by page identity. */
  datatype TabWorld = TabWorld(capture: nat -> Capture, fault: nat -> TabFault)

  /** Why a record was appended. */
  datatype Trigger = NewTab | Redirection | Clicked

  /** The observable effects, in order: an appended record, a closed tab, a
      page sent back. */
  datatype Event =
    | Logged(trigger: Trigger, page: nat, record: Record)
    | Closed(page: nat)
    | WentBack(page: nat)

  /** The `click_description` of a record: a phrase naming the trigger,
      followed by the element's text. */
  function Description(t: Trigger, text: string): (r: string)
    ensures |r| > |text| && r[|r| - |text|..] == text
  {
    match t
    case NewTab => "New tab after click: " + text
    case Redirection => "Redirection after click: " + text
    case Clicked => "Clicked on element: " + text
  }

  /** A description names both its trigger and the element's text. */
  lemma DescriptionInjective(t: Trigger, x: string, t': Trigger, y: string)
    ensures Description(t, x) == Description(t', y) <==> t == t' && x == y
  {
    var a, b := Description(t, x), Description(t', y);
    if a == b {
      assert a[0] == b[0];
      assert t == t';
      assert |x| == |y|;
      assert x == a[|a| - |x|..] && y == b[|b| - |y|..];
    }
  }

  /** The records appended, in order. */
  function Records(events: seq<Event>): seq<Record> {
    if events == [] then []
    else if events[0].Logged? then [events[0].record] + Records(events[1..])
    else Records(events[1..])
  }

  /** The number of records appended with the given trigger. */
  function Count(events: seq<Event>, t: Trigger): nat {
    if events == [] then 0
    else if events[0].Logged? && events[0].trigger == t then 1 + Count(events[1..], t)
    else Count(events[1..], t)
  }

  lemma {:induction false} RecordsAppend(a: seq<Event>, b: seq<Event>)
    ensures Records(a + b) == Records(a) + Records(b)
    ensures forall t :: Count(a + b, t) == Count(a, t) + Count(b, t)
    decreases |a|
  {
    if a == [] {
      assert a + b == b;
    } else {
      assert (a + b)[0] == a[0];
      assert (a + b)[1..] == a[1..] + b;
      RecordsAppend(a[1..], b);
      if a[0].Logged? {
        assert Records(a + b) == [a[0].record] + Records(a[1..] + b);
        assert Records(a) == [a[0].record] + Records(a[1..]);
      }
    }
  }

  /** The number of listed pages whose URL moved away from `initialUrl`. */
  function CountMoved(pages: seq<Tab>, initialUrl: string): (n: nat)
    ensures n <= |pages|
  {
    if pages == [] then 0
    else if pages[0].url != initialUrl then 1 + CountMoved(pages[1..], initialUrl)
    else CountMoved(pages[1..], initialUrl)
  }

  /** The number of listed pages with the given identity. */
  function CountId(pages: seq<Tab>, id: nat): nat {
    if pages == [] then 0
    else if pages[0].id == id then 1 + CountId(pages[1..], id)
    else CountId(pages[1..], id)
  }

  /** The number of listed pages with the given identity whose URL moved
      away from `initialUrl`. */
  function CountMovedId(pages: seq<Tab>, id: nat, initialUrl: string): nat {
    if pages == [] then 0
    else if pages[0].id == id && pages[0].url != initialUrl then 1 + CountMovedId(pages[1..], id, initialUrl)
    else CountMovedId(pages[1..], id, initialUrl)
  }

  lemma {:induction false} NotListedMovedZero(pages: seq<Tab>, id: nat, initialUrl: string)
    requires forall i :: 0 <= i < |pages| ==> pages[i].id != id
    ensures CountMovedId(pages, id, initialUrl) == 0
    decreases |pages|
  {
    if pages != [] {
      NotListedMovedZero(pages[1..], id, initialUrl);
    }
  }

  lemma {:induction false} DistinctIdsCountAtMostOne(pages: seq<Tab>, id: nat)
    requires DistinctIds(pages)
    ensures CountId(pages, id) <= 1
    decreases |pages|
  {
    if pages != [] {
      DistinctIdsCountAtMostOne(pages[1..], id);
      if pages[0].id == id {
        NotListedCountZero(pages[1..], id);
      }
    }
  }

  lemma {:induction false} NotListedCountZero(pages: seq<Tab>, id: nat)
    requires forall i :: 0 <= i < |pages| ==> pages[i].id != id
    ensures CountId(pages, id) == 0
    decreases |pages|
  {
    if pages != [] {
      NotListedCountZero(pages[1..], id);
    }
  }

  /** No listed page raises. */
  predicate NoTabFaults(world: TabWorld, pages: seq<Tab>) {
    forall i :: 0 <= i < |pages| ==> world.fault(pages[i].id) == NoFault
  }

  /** The second loop of `handle_redirection_or_new_tab`, over the listed
      pages whose URL moved: a new tab is recorded and closed, the original
      page is recorded and sent back; a raise ends the handler, keeping the
      records appended so far. */
  function Visit(pages: seq<Tab>, originalId: nat, initialUrl: string, text: string, world: TabWorld)
    : (ev: seq<Event>)
    ensures |Records(ev)| <= CountMoved(pages, initialUrl)
    ensures Count(ev, Redirection) <= CountId(pages, originalId)
    ensures Count(ev, Clicked) == 0
    decreases |pages|
  {
    if pages == [] then []
    else
      var p := pages[0];
      var rest := pages[1..];
      if p.url == initialUrl then Visit(rest, originalId, initialUrl, text, world)
      else if p.id != originalId then
        if world.fault(p.id) == LoadFault then []
        else
          var logged := Logged(NewTab, p.id, MonitorChanges(world.capture(p.id), Description(NewTab, text)));
          if world.fault(p.id) == CleanupFault then [logged]
          else
            var tail := Visit(rest, originalId, initialUrl, text, world);
            RecordsAppend([logged, Closed(p.id)], tail);
            RecordThenAction(logged, Closed(p.id));
            [logged, Closed(p.id)] + tail
      else
        var logged := Logged(Redirection, p.id, MonitorChanges(world.capture(p.id), Description(Redirection, text)));
        if world.fault(p.id) == CleanupFault then [logged]
        else
          var tail := Visit(rest, originalId, initialUrl, text, world);
          RecordsAppend([logged, WentBack(p.id)], tail);
          RecordThenAction(logged, WentBack(p.id));
          [logged, WentBack(p.id)] + tail
  }

  /** A handled page yields its record, then its close or its return. */
  lemma VisitUnfold(pages: seq<Tab>, originalId: nat, initialUrl: string, text: string, world: TabWorld)
    requires pages != [] && pages[0].url != initialUrl && world.fault(pages[0].id) == NoFault
    ensures var p := pages[0];
      var t := if p.id != originalId then NewTab else Redirection;
      var logged := Logged(t, p.id, MonitorChanges(world.capture(p.id), Description(t, text)));
      var after := if p.id != originalId then Closed(p.id) else WentBack(p.id);
      Visit(pages, originalId, initialUrl, text, world)
        == [logged, after] + Visit(pages[1..], originalId, initialUrl, text, world)
  {
  }

  /** A record followed by an event that is not a record. */
  lemma RecordThenAction(logged: Event, after: Event)
    requires logged.Logged? && !after.Logged?
    ensures Records([logged, after]) == [logged.record]
    ensures forall t :: Count([logged, after], t) == if logged.trigger == t then 1 else 0
  {
    var ev := [logged, after];
    assert ev[1..] == [after] && [after][1..] == [];
    assert Records([after]) == [];
    assert Records(ev) == [logged.record] + Records([after]);
    forall t
      ensures Count(ev, t) == if logged.trigger == t then 1 else 0
    {
      assert Count([after], t) == 0;
    }
  }

  /** Without faults every listed page whose URL moved is recorded, and the
      original page as often as it is listed with a moved URL. */
  lemma {:induction false} VisitWithoutFaults(
    pages: seq<Tab>, originalId: nat, initialUrl: string, text: string, world: TabWorld)
    requires NoTabFaults(world, pages)
    ensures var ev := Visit(pages, originalId, initialUrl, text, world);
      && |Records(ev)| == CountMoved(pages, initialUrl)
      && Count(ev, Redirection) == CountMovedId(pages, originalId, initialUrl)
    decreases |pages|
  {
    if pages != [] {
      var p := pages[0];
      assert world.fault(p.id) == NoFault;
      assert NoTabFaults(world, pages[1..]) by {
        assert forall i :: 0 <= i < |pages[1..]| ==> pages[1..][i] == pages[i + 1];
      }
      VisitWithoutFaults(pages[1..], originalId, initialUrl, text, world);
      if p.url != initialUrl {
        VisitUnfold(pages, originalId, initialUrl, text, world);
        var t := if p.id != originalId then NewTab else Redirection;
        var logged := Logged(t, p.id, MonitorChanges(world.capture(p.id), Description(t, text)));
        var after := if p.id != originalId then Closed(p.id) else WentBack(p.id);
        var tail := Visit(pages[1..], originalId, initialUrl, text, world);
        RecordsAppend([logged, after], tail);
        RecordThenAction(logged, after);
      }
    }
  }

  /** Every event of the handler belongs to its trigger: new-tab records
      are about other pages, redirection records about the original, and a
      filled record carries the description of its trigger. */
  predicate Fits(e: Event, originalId: nat, text: string) {
    e.Logged? ==>
      && (e.trigger == NewTab ==> e.page != originalId)
      && (e.trigger == Redirection ==> e.page == originalId)
      && (e.record.Entry? ==> e.record.description == Description(e.trigger, text))
  }

  predicate AllFit(ev: seq<Event>, originalId: nat, text: string) {
    forall k :: 0 <= k < |ev| ==> Fits(ev[k], originalId, text)
  }

  lemma AllFitAppend(a: seq<Event>, b: seq<Event>, originalId: nat, text: string)
    requires AllFit(a, originalId, text) && AllFit(b, originalId, text)
    ensures AllFit(a + b, originalId, text)
  {
    forall k | 0 <= k < |a + b|
      ensures Fits((a + b)[k], originalId, text)
    {
      if k >= |a| {
        assert (a + b)[k] == b[k - |a|];
      }
    }
  }

  lemma {:induction false} VisitEventsFit(
    pages: seq<Tab>, originalId: nat, initialUrl: string, text: string, world: TabWorld)
    ensures AllFit(Visit(pages, originalId, initialUrl, text, world), originalId, text)
    decreases |pages|
  {
    if pages != [] {
      var p := pages[0];
      var rest := pages[1..];
      VisitEventsFit(rest, originalId, initialUrl, text, world);
      if p.url != initialUrl && world.fault(p.id) != LoadFault {
        var ev := Visit(pages, originalId, initialUrl, text, world);
        assert Fits(ev[0], originalId, text);
        if world.fault(p.id) != CleanupFault {
          AllFitAppend(ev[..2], Visit(rest, originalId, initialUrl, text, world), originalId, text);
          assert ev == ev[..2] + Visit(rest, originalId, initialUrl, text, world);
        }
      }
    }
  }

  /** `handle_redirection_or_new_tab` after one click on the original page.
      `initialUrl` is the URL of the original page read when the handler
      starts, that is after the click has returned. */
  function HandleRedirectionOrNewTab(
    original: Tab, context: seq<Tab>, initialUrl: string, text: string, world: TabWorld)
    : (ev: seq<Event>)
    ensures |Records(ev)| <= |PageList(original, context, initialUrl)|
    ensures Count(ev, Redirection) <= 1
    ensures Count(ev, Clicked) == 0
  {
    var pages := PageList(original, context, initialUrl);
    DistinctIdsCountAtMostOne(pages, original.id);
    Visit(pages, original.id, initialUrl, text, world)
  }

  /** Without faults, one record per listed page whose URL moved, and the
      original page is recorded exactly when its own URL moved. */
  lemma HandlerRecordsEveryMovedPage(
    original: Tab, context: seq<Tab>, initialUrl: string, text: string, world: TabWorld)
    requires NoTabFaults(world, PageList(original, context, initialUrl))
    ensures var pages := PageList(original, context, initialUrl);
      |Records(HandleRedirectionOrNewTab(original, context, initialUrl, text, world))|
        == CountMoved(pages, initialUrl)
  {
    VisitWithoutFaults(PageList(original, context, initialUrl), original.id, initialUrl, text, world);
  }

  /** Without faults, the original page is recorded as a redirection exactly
      when its own URL moved away from the URL read at entry. */
  lemma RedirectionIffOriginalMoved(
    original: Tab, context: seq<Tab>, initialUrl: string, text: string, world: TabWorld)
    requires NoTabFaults(world, PageList(original, context, initialUrl))
    ensures Count(HandleRedirectionOrNewTab(original, context, initialUrl, text, world), Redirection)
      == (if original.url != initialUrl then 1 else 0)
  {
    var pages := PageList(original, context, initialUrl);
    assert forall i :: 0 <= i < |pages[1..]| ==> pages[1..][i].id == pages[i + 1].id != pages[0].id;
    NotListedMovedZero(pages[1..], original.id, initialUrl);
    VisitWithoutFaults(pages, original.id, initialUrl, text, world);
  }

  /** A clickable element: whether it is visible and enabled, and its text. */
  datatype Element = Element(visible: bool, enabled: bool, text: string)

  /** Which step of a loop pass raised, if any: the element query, the
      visibility test, text or click, or the pause after the records. */
  datatype RoundFault = Clean | QueryFault | ClickFault | SettleFault

  /** What one pass of the click loop meets. */
  datatype Round = Round(
    candidates: seq<Element>,
    choice: nat,
    fault: RoundFault,
    urlAfterClick: string,
    pageUrl: string,
    context: seq<Tab>,
    tabs: TabWorld,
    capture: Capture)

  /** `random.choice` picks one of the candidates. */
  predicate ValidRound(r: Round) {
    r.candidates != [] ==> r.choice < |r.candidates|
  }

  /** A pass with no raise whose chosen element is visible and enabled. */
  predicate Clickable(r: Round) {
    && r.fault == Clean
    && r.choice < |r.candidates|
    && r.candidates[r.choice].visible && r.candidates[r.choice].enabled
  }

  /** `random.randint(5, 10)`. */
  type ClickCount = n: nat | 5 <= n <= 10 witness 5

  datatype Ending = ClicksExhausted | NoCandidates | Faulted

  /** The events of the performed clicks, one block per click, the number of
      loop passes started, and why the loop ended. */
  datatype Session = Session(clicks: seq<seq<Event>>, iterations: nat, ending: Ending)

  /** The events of one performed click: the handler's, then the record of
      the click itself. */
  function ClickBlock(pageId: nat, r: Round, text: string): (b: seq<Event>)
    ensures |b| >= 1
    ensures b[..|b| - 1]
      == HandleRedirectionOrNewTab(Tab(pageId, r.pageUrl), r.context, r.urlAfterClick, text, r.tabs)
    ensures b[|b| - 1].Logged? && b[|b| - 1].trigger == Clicked && b[|b| - 1].page == pageId
    ensures b[|b| - 1].record == MonitorChanges(r.capture, Description(Clicked, text))
    ensures Count(b[..|b| - 1], Clicked) == 0
    ensures Count(b, Redirection) <= 1
    ensures |Records(b)| <= 1 + |PageList(Tab(pageId, r.pageUrl), r.context, r.urlAfterClick)|
  {
    var handled := HandleRedirectionOrNewTab(Tab(pageId, r.pageUrl), r.context, r.urlAfterClick, text, r.tabs);
    var clicked := Logged(Clicked, pageId, MonitorChanges(r.capture, Description(Clicked, text)));
    var b := handled + [clicked];
    RecordsAppend(handled, [clicked]);
    assert Records([clicked]) == [clicked.record];
    assert Count([clicked], Redirection) == 0;
    assert b[..|b| - 1] == handled;
    b
  }

  /** A block holds exactly one click record, at its end, and at most one
      redirection record. */
  predicate WellFormedBlock(pageId: nat, b: seq<Event>) {
    && |b| >= 1
    && b[|b| - 1].Logged? && b[|b| - 1].trigger == Clicked && b[|b| - 1].page == pageId
    && Count(b[..|b| - 1], Clicked) == 0
    && Count(b, Redirection) <= 1
  }

  /** The outcome of one loop pass: the loop goes on or stops, with the
      block of the click performed in the pass, if any. */
  datatype PassOutcome =
    | Continue(blocks: seq<seq<Event>>)
    | Stop(blocks: seq<seq<Event>>, ending: Ending)

  /** One pass of the loop body of `simulate_clicks`. */
  function Pass(pageId: nat, r: Round): (o: PassOutcome)
    requires ValidRound(r)
    ensures |o.blocks| <= 1
    ensures WellFormedBlocks(pageId, o.blocks)
    ensures |Records(Flatten(o.blocks))| <= 2 + |r.context|
    ensures o.Stop? ==> o.ending != ClicksExhausted
    ensures r.candidates == [] ==> o.blocks == [] && o.Stop?
    ensures r.fault == QueryFault ==> o == Stop([], Faulted)
    ensures r.fault == ClickFault && r.candidates != [] ==> o == Stop([], Faulted)
    ensures Clickable(r) ==> o == Continue([ClickBlock(pageId, r, r.candidates[r.choice].text)])
    ensures r.fault == SettleFault && r.choice < |r.candidates|
      && r.candidates[r.choice].visible && r.candidates[r.choice].enabled
      ==> o == Stop([ClickBlock(pageId, r, r.candidates[r.choice].text)], Faulted)
  {
    if r.fault == QueryFault then Stop([], Faulted)
    else if r.candidates == [] then Stop([], NoCandidates)
    else
      var e := r.candidates[r.choice];
      if r.fault == ClickFault then Stop([], Faulted)
      else if !(e.visible && e.enabled) then Continue([])
      else
        var block := ClickBlock(pageId, r, e.text);
        assert Flatten([block]) == block by {
          assert [block][1..] == [];
          assert block + [] == block;
        }
        if r.fault == SettleFault then Stop([block], Faulted) else Continue([block])
  }

  predicate WellFormedBlocks(pageId: nat, blocks: seq<seq<Event>>) {
    forall k :: 0 <= k < |blocks| ==> WellFormedBlock(pageId, blocks[k])
  }

  lemma WellFormedBlocksAppend(pageId: nat, a: seq<seq<Event>>, b: seq<seq<Event>>)
    requires WellFormedBlocks(pageId, a) && WellFormedBlocks(pageId, b)
    ensures WellFormedBlocks(pageId, a + b)
  {
    forall k | 0 <= k < |a + b|
      ensures WellFormedBlock(pageId, (a + b)[k])
    {
      if k >= |a| {
        assert (a + b)[k] == b[k - |a|];
      }
    }
  }

  /** What every pass outcome satisfies: at most one block, and a stop
      that names why the loop ended early. */
  predicate OutcomeShape(o: PassOutcome) {
    |o.blocks| <= 1 && (o.Stop? ==> o.ending != ClicksExhausted)
  }

  /** The outcomes of the passes of a session of `n` passes: pass `k` reads
      round `k`. */
  function Passes(pageId: nat, rounds: seq<Round>, n: nat): (os: seq<PassOutcome>)
    requires n <= |rounds|
    requires forall k :: 0 <= k < |rounds| ==> ValidRound(rounds[k])
    ensures |os| == n
    ensures forall k :: 0 <= k < n ==> os[k] == Pass(pageId, rounds[k]) && OutcomeShape(os[k])
  {
    seq(n, k requires 0 <= k < n => Pass(pageId, rounds[k]))
  }

  /** The `for i in range(num_clicks)` loop from pass `i` on, given the
      outcome of each pass: a block goes on and the loop stops at the first
      pass that stops it. */
  function ClickLoop(outcomes: seq<PassOutcome>, i: nat): (s: Session)
    requires i <= |outcomes|
    requires forall k :: 0 <= k < |outcomes| ==> OutcomeShape(outcomes[k])
    ensures |s.clicks| <= s.iterations <= |outcomes| - i
    ensures s.ending == ClicksExhausted ==> s.iterations == |outcomes| - i
    ensures (forall k :: i <= k < |outcomes| ==> outcomes[k].Continue? && |outcomes[k].blocks| == 1) ==>
      |s.clicks| == s.iterations == |outcomes| - i && s.ending == ClicksExhausted
    decreases |outcomes| - i
  {
    if i == |outcomes| then Session([], 0, ClicksExhausted)
    else
      match outcomes[i]
      case Stop(blocks, ending) =>
        assert OutcomeShape(outcomes[i]);
        Session(blocks, 1, ending)
      case Continue(blocks) =>
        var rest := ClickLoop(outcomes, i + 1);
        Session(blocks + rest.clicks, rest.iterations + 1, rest.ending)
  }

  /** The loop collects only blocks of its passes, so when every pass leaves
      well-formed blocks, every block of the session is well formed. */
  lemma {:induction false} ClickLoopWellFormed(pageId: nat, outcomes: seq<PassOutcome>, i: nat)
    requires i <= |outcomes|
    requires forall k :: 0 <= k < |outcomes| ==> OutcomeShape(outcomes[k])
    requires forall k :: 0 <= k < |outcomes| ==> WellFormedBlocks(pageId, outcomes[k].blocks)
    ensures WellFormedBlocks(pageId, ClickLoop(outcomes, i).clicks)
    decreases |outcomes| - i
  {
    if i < |outcomes| && outcomes[i].Continue? {
      ClickLoopWellFormed(pageId, outcomes, i + 1);
      WellFormedBlocksAppend(pageId, outcomes[i].blocks, ClickLoop(outcomes, i + 1).clicks);
    }
  }

  /** The loop appends no more records than its passes allow, when pass `k`
      appends no more than round `k` allows. */
  lemma {:induction false} ClickLoopRecordsBounded(outcomes: seq<PassOutcome>, rounds: seq<Round>, i: nat)
    requires i <= |outcomes| <= |rounds|
    requires forall k :: 0 <= k < |outcomes| ==> OutcomeShape(outcomes[k])
    requires forall k :: 0 <= k < |outcomes| ==>
      |Records(Flatten(outcomes[k].blocks))| <= 2 + |rounds[k].context|
    ensures |Records(Flatten(ClickLoop(outcomes, i).clicks))| <= RecordBudget(rounds, i, |outcomes|)
    decreases |outcomes| - i
  {
    if i < |outcomes| {
      var blocks := outcomes[i].blocks;
      if outcomes[i].Continue? {
        var rest := ClickLoop(outcomes, i + 1).clicks;
        ClickLoopRecordsBounded(outcomes, rounds, i + 1);
        FlattenAppend(blocks, rest);
        RecordsAppend(Flatten(blocks), Flatten(rest));
      }
    }
  }

  /** What each pass of a session leaves: well-formed blocks, no more
      records than its round allows, and one block when it is clickable. */
  lemma PassesFacts(pageId: nat, rounds: seq<Round>, n: nat)
    requires n <= |rounds|
    requires forall k :: 0 <= k < |rounds| ==> ValidRound(rounds[k])
    ensures forall k :: 0 <= k < n ==>
      var o := Passes(pageId, rounds, n)[k];
      && WellFormedBlocks(pageId, o.blocks)
      && |Records(Flatten(o.blocks))| <= 2 + |rounds[k].context|
      && (Clickable(rounds[k]) ==> o.Continue? && |o.blocks| == 1)
  {
  }

  /** `simulate_clicks`: at most `n` passes, each adding at most one block. */
  function SimulateClicks(pageId: nat, n: ClickCount, rounds: seq<Round>): (s: Session)
    requires n <= |rounds|
    requires forall k :: 0 <= k < |rounds| ==> ValidRound(rounds[k])
    ensures |s.clicks| <= s.iterations <= n
    ensures WellFormedBlocks(pageId, s.clicks)
    ensures |SessionRecords(s)| <= RecordBudget(rounds, 0, n)
    ensures (forall k :: 0 <= k < n ==> Clickable(rounds[k])) ==>
      s.iterations == n && s.ending == ClicksExhausted
  {
    var outcomes := Passes(pageId, rounds, n);
    PassesFacts(pageId, rounds, n);
    ClickLoopWellFormed(pageId, outcomes, 0);
    ClickLoopRecordsBounded(outcomes, rounds, 0);
    ClickLoop(outcomes, 0)
  }

  /** The events of a session in order. */
  function Flatten(blocks: seq<seq<Event>>): seq<Event> {
    if blocks == [] then [] else blocks[0] + Flatten(blocks[1..])
  }

  /** The session's contribution to the shared change list. */
  function SessionRecords(s: Session): seq<Record> {
    Records(Flatten(s.clicks))
  }

  /** The most records passes `i` to `n` can add: per click one for the
      original page, one per context page, and the click record. */
  function RecordBudget(rounds: seq<Round>, i: nat, n: nat): nat
    requires i <= n <= |rounds|
    decreases n - i
  {
    if i == n then 0 else 2 + |rounds[i].context| + RecordBudget(rounds, i + 1, n)
  }

  lemma {:induction false} FlattenAppend(a: seq<seq<Event>>, b: seq<seq<Event>>)
    ensures Flatten(a + b) == Flatten(a) + Flatten(b)
    decreases |a|
  {
    if a == [] {
      assert a + b == b;
    } else {
      assert (a + b)[1..] == a[1..] + b;
      FlattenAppend(a[1..], b);
    }
  }

  /** A pass that stops with no block ends the loop: the session's blocks
      are those of the passes before it. */
  lemma {:induction false} StopEndsLoop(outcomes: seq<PassOutcome>, i: nat, j: nat)
    requires i <= j < |outcomes|
    requires forall k :: 0 <= k < |outcomes| ==> OutcomeShape(outcomes[k])
    requires outcomes[j].Stop? && outcomes[j].blocks == []
    ensures ClickLoop(outcomes, i).clicks == ClickLoop(outcomes[..j], i).clicks
    ensures ClickLoop(outcomes, i).iterations <= j - i + 1
    decreases j - i
  {
    var prefix := outcomes[..j];
    assert forall k :: 0 <= k < j ==> prefix[k] == outcomes[k];
    if i < j {
      if outcomes[i].Continue? {
        StopEndsLoop(outcomes, i + 1, j);
      }
    }
  }

  /** The outcomes of the first `j` passes do not depend on the later
      rounds. */
  lemma PassesPrefix(pageId: nat, rounds: seq<Round>, j: nat, n: nat)
    requires j <= n <= |rounds|
    requires forall k :: 0 <= k < |rounds| ==> ValidRound(rounds[k])
    ensures Passes(pageId, rounds, n)[..j] == Passes(pageId, rounds, j)
  {
  }

  /** A pass that finds no clickable element ends the session: its blocks
      are those of the passes before it. */
  lemma NoCandidatesEndsLoop(pageId: nat, n: ClickCount, rounds: seq<Round>, j: nat)
    requires j < n <= |rounds|
    requires forall k :: 0 <= k < |rounds| ==> ValidRound(rounds[k])
    requires rounds[j].candidates == []
    ensures SimulateClicks(pageId, n, rounds).clicks == ClickLoop(Passes(pageId, rounds, j), 0).clicks
    ensures SimulateClicks(pageId, n, rounds).iterations <= j + 1
  {
    StopEndsLoop(Passes(pageId, rounds, n), 0, j);
    PassesPrefix(pageId, rounds, j, n);
  }

  /** A chosen element that is hidden or disabled uses up a pass and adds
      nothing. */
  lemma SkippedElementUsesPass(pageId: nat, rounds: seq<Round>, n: nat, i: nat)
    requires i < n <= |rounds|
    requires forall k :: 0 <= k < |rounds| ==> ValidRound(rounds[k])
    requires rounds[i].fault == Clean && rounds[i].choice < |rounds[i].candidates|
    requires !rounds[i].candidates[rounds[i].choice].visible
      || !rounds[i].candidates[rounds[i].choice].enabled
    ensures ClickLoop(Passes(pageId, rounds, n), i).clicks == ClickLoop(Passes(pageId, rounds, n), i + 1).clicks
    ensures ClickLoop(Passes(pageId, rounds, n), i).iterations
      == ClickLoop(Passes(pageId, rounds, n), i + 1).iterations + 1
  {
    assert Passes(pageId, rounds, n)[i] == Continue([]);
    assert [] + ClickLoop(Passes(pageId, rounds, n), i + 1).clicks
      == ClickLoop(Passes(pageId, rounds, n), i + 1).clicks;
  }

  /** The block of a clickable pass: the click on the chosen element. */
  function BlockOf(pageId: nat, r: Round): seq<Event>
    requires Clickable(r)
  {
    ClickBlock(pageId, r, r.candidates[r.choice].text)
  }

  /** A clickable pass puts its block in front of the later passes' blocks. */
  lemma CleanStep(pageId: nat, rounds: seq<Round>, n: nat, i: nat)
    requires i < n <= |rounds|
    requires forall k :: 0 <= k < |rounds| ==> ValidRound(rounds[k])
    requires Clickable(rounds[i])
    ensures ClickLoop(Passes(pageId, rounds, n), i).clicks
      == [BlockOf(pageId, rounds[i])] + ClickLoop(Passes(pageId, rounds, n), i + 1).clicks
  {
    assert Passes(pageId, rounds, n)[i] == Continue([BlockOf(pageId, rounds[i])]);
  }

  /** When every pass from `i` on goes on with one block, the session holds
      those blocks in pass order. */
  lemma {:induction false} ContinuedBlocks(outcomes: seq<PassOutcome>, i: nat)
    requires i <= |outcomes|
    requires forall k :: 0 <= k < |outcomes| ==> OutcomeShape(outcomes[k])
    requires forall k :: i <= k < |outcomes| ==> outcomes[k].Continue? && |outcomes[k].blocks| == 1
    ensures |ClickLoop(outcomes, i).clicks| == |outcomes| - i
    ensures forall k :: 0 <= k < |outcomes| - i ==> ClickLoop(outcomes, i).clicks[k] == outcomes[i + k].blocks[0]
    decreases |outcomes| - i
  {
    if i < |outcomes| {
      var rest := ClickLoop(outcomes, i + 1).clicks;
      ContinuedBlocks(outcomes, i + 1);
      assert ClickLoop(outcomes, i).clicks == [outcomes[i].blocks[0]] + rest;
      forall k | 1 <= k < |outcomes| - i
        ensures ClickLoop(outcomes, i).clicks[k] == outcomes[i + k].blocks[0]
      {
        assert rest[k - 1] == outcomes[i + 1 + (k - 1)].blocks[0];
        assert i + 1 + (k - 1) == i + k;
      }
    }
  }

  /** When every pass from `i` on is clickable, the session holds one block
      per pass, in pass order: block `k` is the click of pass `i + k`. */
  lemma CleanLoopBlocks(pageId: nat, rounds: seq<Round>, n: nat, i: nat)
    requires i <= n <= |rounds|
    requires forall k :: 0 <= k < |rounds| ==> ValidRound(rounds[k])
    requires forall k :: i <= k < n ==> Clickable(rounds[k])
    ensures |ClickLoop(Passes(pageId, rounds, n), i).clicks| == n - i
    ensures forall k :: 0 <= k < n - i ==>
      ClickLoop(Passes(pageId, rounds, n), i).clicks[k] == BlockOf(pageId, rounds[i + k])
  {
    var outcomes := Passes(pageId, rounds, n);
    forall k | i <= k < n
      ensures outcomes[k] == Continue([BlockOf(pageId, rounds[k])])
    {
    }
    ContinuedBlocks(outcomes, i);
  }

  /** A clean session of `simulate_clicks` holds the clicks of its passes in
      order. */
  lemma CleanSessionBlocks(pageId: nat, n: ClickCount, rounds: seq<Round>)
    requires n <= |rounds|
    requires forall k :: 0 <= k < |rounds| ==> ValidRound(rounds[k])
    requires forall k :: 0 <= k < n ==> Clickable(rounds[k])
    ensures |SimulateClicks(pageId, n, rounds).clicks| == n
    ensures forall k :: 0 <= k < n ==>
      SimulateClicks(pageId, n, rounds).clicks[k] == BlockOf(pageId, rounds[k])
  {
    CleanLoopBlocks(pageId, rounds, n, 0);
  }

  /** A well-formed block holds exactly one click record. */
  lemma OneClickRecordPerBlock(pageId: nat, b: seq<Event>)
    requires WellFormedBlock(pageId, b)
    ensures Count(b, Clicked) == 1
  {
    var last := b[|b| - 1];
    assert b == b[..|b| - 1] + [last];
    RecordsAppend(b[..|b| - 1], [last]);
    assert Count([last], Clicked) == 1 + Count([], Clicked);
  }

  /** The session holds one click record per performed click. */
  lemma {:induction false} ClickRecordsAreClicks(pageId: nat, blocks: seq<seq<Event>>)
    requires WellFormedBlocks(pageId, blocks)
    ensures Count(Flatten(blocks), Clicked) == |blocks|
    decreases |blocks|
  {
    if blocks != [] {
      OneClickRecordPerBlock(pageId, blocks[0]);
      ClickRecordsAreClicks(pageId, blocks[1..]);
      RecordsAppend(blocks[0], Flatten(blocks[1..]));
    }
  }

  /** When every pass meets a clickable element and nothing raises, the loop
      performs all `n` clicks, and the session holds `n` click records. */
  lemma CleanSessionRecordsEveryClick(pageId: nat, n: ClickCount, rounds: seq<Round>)
    requires n <= |rounds|
    requires forall k :: 0 <= k < |rounds| ==> ValidRound(rounds[k])
    requires forall k :: 0 <= k < n ==> Clickable(rounds[k])
    ensures var s := SimulateClicks(pageId, n, rounds);
      s.iterations == n && s.ending == ClicksExhausted && Count(Flatten(s.clicks), Clicked) == n
  {
    ClickRecordsAreClicks(pageId, SimulateClicks(pageId, n, rounds).clicks);
  }

  /** The page list after a click that left the page in place and opened
      two tabs elsewhere. */
  lemma TwoNewTabsPageList(pageId: nat, u: string, v: string, w: string)
    requires v != u && w != u
    ensures var original := Tab(pageId, u);
      PageList(original, [original, Tab(pageId + 1, v), Tab(pageId + 2, w)], u)
        == [original, Tab(pageId + 1, v), Tab(pageId + 2, w)]
  {
    var original := Tab(pageId, u);
    var t1 := Tab(pageId + 1, v);
    var t2 := Tab(pageId + 2, w);
    FirstTabListed(original, t1, t2, u);
    SecondTabListed(original, t1, t2, u);
  }

  /** The original page is skipped and the first new tab joins the list. */
  lemma FirstTabListed(original: Tab, t1: Tab, t2: Tab, u: string)
    requires original.url == u && t1.url != u && t1.id != original.id
    ensures CollectPages([original], [original, t1, t2], u) == CollectPages([original, t1], [t2], u)
  {
    assert [original, t1, t2] == [original] + [t1, t2];
    CollectPagesSkip([original], original, [t1, t2], u);
    assert [t1, t2] == [t1] + [t2];
    CollectPagesAdd([original], t1, [t2], u);
    assert [original] + [t1] == [original, t1];
  }

  /** The second new tab joins the list, which is then complete. */
  lemma SecondTabListed(original: Tab, t1: Tab, t2: Tab, u: string)
    requires t2.url != u && t2.id != original.id && t2.id != t1.id
    ensures CollectPages([original, t1], [t2], u) == [original, t1, t2]
  {
    assert [t2] == [t2] + [];
    CollectPagesAdd([original, t1], t2, [], u);
    assert [original, t1] + [t2] == [original, t1, t2];
  }

  /** One click can add more than two records: a click that opens two new
      tabs adds one record per tab and the click record. */
  lemma TwoNewTabsGiveThreeRecords(
    pageId: nat, u: string, v: string, w: string, r: Round, text: string)
    requires v != u && w != u
    requires r.pageUrl == u && r.urlAfterClick == u
    requires r.context == [Tab(pageId, u), Tab(pageId + 1, v), Tab(pageId + 2, w)]
    requires forall k :: pageId <= k <= pageId + 2 ==> r.tabs.fault(k) == NoFault
    ensures |Records(ClickBlock(pageId, r, text))| == 3
  {
    var original := Tab(pageId, u);
    var t1 := Tab(pageId + 1, v);
    var t2 := Tab(pageId + 2, w);
    TwoNewTabsPageList(pageId, u, v, w);
    var pages := PageList(original, r.context, u);
    assert CountMoved(pages, u) == 2 by {
      assert pages[1..] == [t1, t2] && pages[1..][1..] == [t2] && pages[1..][1..][1..] == [];
      assert CountMoved([t2], u) == 1;
      assert CountMoved([t1, t2], u) == 2;
    }
    HandlerRecordsEveryMovedPage(original, r.context, u, text, r.tabs);
    var handled := HandleRedirectionOrNewTab(original, r.context, u, text, r.tabs);
    var clicked := Logged(Clicked, pageId, MonitorChanges(r.capture, Description(Clicked, text)));
    RecordsAppend(handled, [clicked]);
    assert Records([clicked]) == [clicked.record];
  }

  /** What `monitor_website` does with one target. Launching the browser,
      opening the page and creating the screenshot directory happen before
      its `try`; closing the browser in the `finally` and leaving the
      `async with` happen after its `except`. A raise in either group escapes
      the call (`Aborted`). Otherwise the target's directory is made; then
      either the first navigation fails, or the click session runs. */
  datatype SiteRun =
    | Aborted
    | Unreachable(dir: string)
    | Monitored(dir: string, session: Session)

  function MonitorWebsite(
    url: string, pageId: nat, setupOk: bool, reachable: bool, closeOk: bool,
    n: ClickCount, rounds: seq<Round>)
    : (run: SiteRun)
    requires n <= |rounds|
    requires forall k :: 0 <= k < |rounds| ==> ValidRound(rounds[k])
    ensures run.Aborted? <==> !setupOk || !closeOk
    ensures run.Unreachable? <==> setupOk && closeOk && !reachable
    ensures !run.Aborted? ==> '/' !in run.dir && |run.dir| <= |url|
    ensures run.Monitored? ==> run.session.iterations <= n
  {
    if !setupOk || !closeOk then Aborted
    else
      var dir := Names.ScreenshotDirName(url);
      if reachable then Monitored(dir, SimulateClicks(pageId, n, rounds)) else Unreachable(dir)
  }

  /** A reachable target whose every pass meets a clickable element runs all
      `n` passes and leaves `n` click records, in the directory named after
      its URL. */
  lemma MonitoredSiteClicksEveryPass(
    url: string, pageId: nat, n: ClickCount, rounds: seq<Round>)
    requires n <= |rounds|
    requires forall k :: 0 <= k < |rounds| ==> ValidRound(rounds[k])
    requires forall k :: 0 <= k < n ==> Clickable(rounds[k])
    ensures var run := MonitorWebsite(url, pageId, true, true, true, n, rounds);
      && run.Monitored?
      && run.dir == Names.ScreenshotDirName(url)
      && run.session.iterations == n
      && run.session.ending == ClicksExhausted
      && Count(Flatten(run.session.clicks), Clicked) == n
  {
    CleanSessionRecordsEveryClick(pageId, n, rounds);
  }
}

=== FILE: content_server.dfy ===
/** The demonstration page of Server.py: the `/update` route swaps the two
    strings of a module-level list and returns the new first one, and the
    script embedded in the page fetches `/update` on a timer at most
    `maxChanges` times. */
module ContentServer {

  /** The two-element `content` list. */
  datatype Content = Content(first: string, second: string)

  function Elements(c: Content): seq<string> {
    [c.first, c.second]
  }

  /** The list as the module defines it. */
  const Initial := Content("First content", "Second content")

  /** The list after an `/update` request and the response to it. */
  datatype Updated = Updated(list: Content, response: string)

  /** `update`: swap the two strings and return the one now first. */
  function Update(c: Content): (r: Updated)
    ensures r.response == c.second
    ensures multiset(Elements(r.list)) == multiset(Elements(c))
    ensures r.list.first == r.response
  {
    var swapped := Content(c.second, c.first);
    Updated(swapped, swapped.first)
  }

  /** Two updates in a row restore the list. */
  lemma UpdateTwiceRestores(c: Content)
    ensures Update(Update(c).list).list == c
  {
  }

  /** The list after a number of requests and the responses, in order. */
  datatype Served = Served(list: Content, responses: seq<string>)

  /** `k` requests to `/update`. The last response is the first string of the
      final list. */
  function Serve(c: Content, k: nat): (r: Served)
    ensures |r.responses| == k
    ensures k > 0 ==> r.responses[k - 1] == r.list.first
    decreases k
  {
    if k == 0 then Served(c, [])
    else
      var u := Update(c);
      var rest := Serve(u.list, k - 1);
      Served(rest.list, [u.response] + rest.responses)
  }

  /** One request, then the rest. */
  lemma ServeUnfold(c: Content, k: nat)
    requires k > 0
    ensures Serve(c, k).list == Serve(Content(c.second, c.first), k - 1).list
    ensures Serve(c, k).responses == [c.second] + Serve(Content(c.second, c.first), k - 1).responses
  {
  }

  lemma ParityFlips(k: nat)
    requires k > 0
    ensures (k - 1) % 2 == 0 <==> k % 2 != 0
  {
  }

  /** After an even number of requests the list is back to its start, after
      an odd number it is swapped. */
  lemma {:induction false} ServeFinal(c: Content, k: nat)
    ensures Serve(c, k).list == (if k % 2 == 0 then c else Content(c.second, c.first))
    decreases k
  {
    if k > 0 {
      ServeUnfold(c, k);
      ServeFinal(Content(c.second, c.first), k - 1);
      ParityFlips(k);
    }
  }

  /** However many requests were served, the list holds the two strings it
      started with. */
  lemma ServeKeepsStrings(c: Content, k: nat)
    ensures multiset(Elements(Serve(c, k).list)) == multiset(Elements(c))
  {
    ServeFinal(c, k);
    if k % 2 != 0 {
      assert Serve(c, k).list == Update(c).list;
    }
  }

  /** Starting from any list, the responses alternate between its second and
      its first string. */
  lemma {:induction false} ServeAlternates(c: Content, k: nat)
    ensures forall i :: 0 <= i < k ==>
      Serve(c, k).responses[i] == (if i % 2 == 0 then c.second else c.first)
    decreases k
  {
    if k > 0 {
      var c' := Content(c.second, c.first);
      ServeUnfold(c, k);
      ServeAlternates(c', k - 1);
      var rest := Serve(c', k - 1).responses;
      forall i | 0 < i < k
        ensures Serve(c, k).responses[i] == (if i % 2 == 0 then c.second else c.first)
      {
        assert Serve(c, k).responses[i] == rest[i - 1];
        ParityFlips(i);
      }
    }
  }

  /** From the module's list the responses are "Second content",
      "First content", "Second content", ... */
  lemma InitialResponses(k: nat)
    ensures forall i :: 0 <= i < k ==>
      Serve(Initial, k).responses[i] == (if i % 2 == 0 then "Second content" else "First content")
  {
    ServeAlternates(Initial, k);
  }

  /** `maxChanges` in the page script. */
  const MaxChanges := 5

  /** The page script's state: its counter and whether a next call is
      scheduled. */
  datatype Client = Client(changeCount: int, scheduled: bool)

  const Loaded := Client(0, true)

  /** The script's state after one call of `startUpdating`, and whether that
      call fetched. */
  datatype Tick = Tick(client: Client, fetched: bool)

  /** One call of `startUpdating`: below the limit it fetches, counts and
      schedules the next call; at the limit it does nothing and schedules
      nothing. */
  function StartUpdating(c: Client): (r: Tick)
    ensures r.fetched <==> c.changeCount < MaxChanges
    ensures r.fetched ==> r.client.changeCount == c.changeCount + 1 && r.client.scheduled
    ensures !r.fetched ==> r.client.changeCount == c.changeCount && !r.client.scheduled
  {
    if c.changeCount < MaxChanges then Tick(Client(c.changeCount + 1, true), true)
    else Tick(Client(c.changeCount, false), false)
  }

  /** The script's state after a number of calls, and how many fetched. */
  datatype Fetches = Fetches(client: Client, count: nat)

  /** The script's first `k` calls: the one on page load and those the timer
      made. */
  function Calls(c: Client, k: nat): (r: Fetches)
    requires c.scheduled
    ensures !r.client.scheduled ==> r.client.changeCount >= MaxChanges
    decreases k
  {
    if k == 0 then Fetches(c, 0)
    else
      var c' := StartUpdating(c).client;
      if !c'.scheduled then Fetches(c', 0)
      else
        var rest := Calls(c', k - 1);
        Fetches(rest.client, rest.count + 1)
  }

  /** However long the page stays open, it fetches `min(k, 5)` times and its
      counter never passes 5. */
  lemma {:induction false} CallsBounded(c: Client, k: nat)
    requires c.scheduled && 0 <= c.changeCount <= MaxChanges
    ensures var r := Calls(c, k);
      && r.count == (if k < MaxChanges - c.changeCount then k else MaxChanges - c.changeCount)
      && r.client.changeCount == c.changeCount + r.count
      && r.client.changeCount <= MaxChanges
    decreases k
  {
    if k > 0 && c.changeCount < MaxChanges {
      CallsBounded(StartUpdating(c).client, k - 1);
    }
  }

  lemma PageFetchesAtMostFive(k: nat)
    ensures Calls(Loaded, k).count <= MaxChanges
    ensures Calls(Loaded, k).client.changeCount <= MaxChanges
  {
    CallsBounded(Loaded, k);
  }

  /** The texts one page shows while the server serves it alone: the first
      five responses, alternating from the module's list. */
  lemma PageShowsAlternatingContent(k: nat)
    ensures var fetches := Calls(Loaded, k).count;
      fetches <= MaxChanges
      && forall i :: 0 <= i < fetches ==>
        Serve(Initial, fetches).responses[i] == (if i % 2 == 0 then "Second content" else "First content")
  {
    CallsBounded(Loaded, k);
    InitialResponses(Calls(Loaded, k).count);
  }
}

=== FILE: names.dfy ===
/** Names derived from target URLs: the character-wise filename sanitiser of
    crawler3.py, Python's `str.replace` as used to strip URL schemes, the two
    per-site directory-name expressions, and the decimal screenshot names
    `0.png`, `1.png`, ... of crawler3.py.

    Python's `str.isalnum` is approximated by ASCII letters and digits. */
module Names {

  /** ASCII approximation of Python's `str.isalnum`. */
  predicate IsAlnum(c: char) {
    ('a' <= c <= 'z') || ('A' <= c <= 'Z') || ('0' <= c <= '9')
  }

  /** The characters `sanitize_filename` keeps as they are. */
  predicate IsSafe(c: char) {
    IsAlnum(c) || c == ' ' || c == '_'
  }

  predicate AllSafe(s: string) {
    forall i :: 0 <= i < |s| ==> IsSafe(s[i])
  }

  /** `sanitize_filename`: every character is kept when it is alphanumeric, a
      space or an underscore, and becomes `_` otherwise. */
  function Sanitize(s: string): (r: string)
    ensures |r| == |s|
    ensures forall i :: 0 <= i < |s| && IsSafe(s[i]) ==> r[i] == s[i]
    ensures forall i :: 0 <= i < |s| && !IsSafe(s[i]) ==> r[i] == '_'
    ensures AllSafe(r)
  {
    if s == [] then []
    else [if IsSafe(s[0]) then s[0] else '_'] + Sanitize(s[1..])
  }

  /** A string is left unchanged by the sanitiser exactly when it is already safe. */
  lemma SanitizeFixesExactlySafe(s: string)
    ensures Sanitize(s) == s <==> AllSafe(s)
  {
    if AllSafe(s) {
      assert forall i :: 0 <= i < |s| ==> Sanitize(s)[i] == s[i];
    }
  }

  lemma SanitizeIdempotent(s: string)
    ensures Sanitize(Sanitize(s)) == Sanitize(s)
  {
    SanitizeFixesExactlySafe(Sanitize(s));
  }

  /** `pat` starts at index `i` of `s`. */
  predicate OccursAt(s: string, pat: string, i: int) {
    0 <= i && i + |pat| <= |s| && s[i..i + |pat|] == pat
  }

  predicate Occurs(s: string, pat: string) {
    exists i :: 0 <= i <= |s| && OccursAt(s, pat, i)
  }

  /** Python's `s.replace(pat, rep)` for a non-empty `pat`: occurrences are
      found left to right and do not overlap. */
  function ReplaceAll(s: string, pat: string, rep: string): (r: string)
    requires pat != []
    ensures |rep| <= |pat| ==> |r| <= |s|
    decreases |s|
  {
    if |s| < |pat| then s
    else if s[..|pat|] == pat then rep + ReplaceAll(s[|pat|..], pat, rep)
    else [s[0]] + ReplaceAll(s[1..], pat, rep)
  }

  /** Every character of the result comes from the string or from the
      replacement. */
  lemma {:induction false} ReplaceAllChars(s: string, pat: string, rep: string)
    requires pat != []
    ensures forall c :: c in ReplaceAll(s, pat, rep) ==> c in s || c in rep
    decreases |s|
  {
    if |s| >= |pat| {
      if s[..|pat|] == pat {
        ReplaceAllChars(s[|pat|..], pat, rep);
        assert forall c :: c in s[|pat|..] ==> c in s;
      } else {
        ReplaceAllChars(s[1..], pat, rep);
        assert forall c :: c in s[1..] ==> c in s;
      }
    }
  }

  /** Replacing a single character is a character-wise map. */
  lemma {:induction false} ReplaceCharIsPointwise(s: string, a: char, b: char)
    ensures |ReplaceAll(s, [a], [b])| == |s|
    ensures forall i :: 0 <= i < |s| ==>
      ReplaceAll(s, [a], [b])[i] == if s[i] == a then b else s[i]
    decreases |s|
  {
    if s != [] {
      ReplaceCharIsPointwise(s[1..], a, b);
      var r := ReplaceAll(s, [a], [b]);
      assert r == [if s[0] == a then b else s[0]] + ReplaceAll(s[1..], [a], [b]);
    }
  }

  /** A replaced character does not survive unless the replacement brings it back. */
  lemma ReplaceCharRemovesIt(s: string, a: char, b: char)
    requires a != b
    ensures a !in ReplaceAll(s, [a], [b])
  {
    ReplaceCharIsPointwise(s, a, b);
  }

  /** A string that lacks some character of the pattern holds no occurrence of
      it, and the replacement leaves it unchanged. */
  lemma {:induction false} ReplaceAbsentIsIdentity(s: string, pat: string, rep: string, c: char)
    requires pat != [] && c in pat && c !in s
    ensures !Occurs(s, pat)
    ensures ReplaceAll(s, pat, rep) == s
    decreases |s|
  {
    var k :| 0 <= k < |pat| && pat[k] == c;
    forall i | 0 <= i <= |s|
      ensures !OccursAt(s, pat, i)
    {
      NoOccurrenceAt(s, pat, i, k);
    }
    if |s| >= |pat| {
      assert s[0..|pat|] == s[..|pat|];
      assert !OccursAt(s, pat, 0);
      ReplaceAbsentIsIdentity(s[1..], pat, rep, c);
    }
  }

  /** One mismatching position rules out an occurrence. */
  lemma NoOccurrenceAt(s: string, pat: string, i: int, k: int)
    requires 0 <= k < |pat|
    requires 0 <= i
    requires i + |pat| > |s| || s[i + k] != pat[k]
    ensures !OccursAt(s, pat, i)
  {
    if i + |pat| <= |s| {
      assert s[i..i + |pat|][k] == s[i + k];
    }
  }

  /** When `pat` does not match at the front, the first character is copied. */
  lemma ReplaceAllSkip(s: string, pat: string, rep: string)
    requires pat != [] && s != []
    requires |s| < |pat| || s[..|pat|] != pat
    ensures ReplaceAll(s, pat, rep) == [s[0]] + ReplaceAll(s[1..], pat, rep)
  {
    if |s| < |pat| {
      var t := s[1..];
      assert |t| < |pat|;
    }
  }

  /** No occurrence starting at `j`: the character at `j` is copied. */
  lemma SkipOne(s: string, pat: string, rep: string, j: nat)
    requires pat != [] && j < |s|
    requires !OccursAt(s, pat, j)
    ensures ReplaceAll(s[j..], pat, rep) == [s[j]] + ReplaceAll(s[j + 1..], pat, rep)
  {
    var u := s[j..];
    assert |u| < |pat| || u[..|pat|] == s[j..j + |pat|];
    ReplaceAllSkip(u, pat, rep);
    assert u[1..] == s[j + 1..];
  }

  /** The copied prefix grows by one character when no occurrence starts at
      its end. */
  lemma SkipPrefixStep(s: string, pat: string, rep: string, n: nat)
    requires pat != [] && 0 < n <= |s|
    requires !OccursAt(s, pat, n - 1)
    requires ReplaceAll(s, pat, rep) == s[..n - 1] + ReplaceAll(s[n - 1..], pat, rep)
    ensures ReplaceAll(s, pat, rep) == s[..n] + ReplaceAll(s[n..], pat, rep)
  {
    SkipOne(s, pat, rep, n - 1);
    AppendAssoc(s[..n - 1], [s[n - 1]], ReplaceAll(s[n..], pat, rep));
    PrefixSnoc(s, n);
  }

  lemma AppendAssoc(a: string, b: string, c: string)
    ensures a + (b + c) == (a + b) + c
  {
  }

  lemma PrefixSnoc(s: string, n: nat)
    requires 0 < n <= |s|
    ensures s[..n - 1] + [s[n - 1]] == s[..n]
  {
  }

  /** A prefix in which no occurrence starts is copied unchanged. */
  lemma {:induction false} ReplaceAllSkipPrefix(s: string, pat: string, rep: string, n: nat)
    requires pat != [] && n <= |s|
    requires forall i :: 0 <= i < n ==> !OccursAt(s, pat, i)
    ensures ReplaceAll(s, pat, rep) == s[..n] + ReplaceAll(s[n..], pat, rep)
    decreases n
  {
    if n == 0 {
      assert s[0..] == s;
    } else {
      ReplaceAllSkipPrefix(s, pat, rep, n - 1);
      SkipPrefixStep(s, pat, rep, n);
    }
  }

  /** A pattern found at the front is replaced. */
  lemma ReplaceAllFront(pat: string, h: string, rep: string)
    requires pat != []
    ensures ReplaceAll(pat + h, pat, rep) == rep + ReplaceAll(h, pat, rep)
  {
    var s := pat + h;
    assert s[..|pat|] == pat && s[|pat|..] == h;
  }

  /** The directory of one site in crawler3.py: both schemes removed, `/`
      replaced by `_`, then sanitised. */
  function SiteDirName(url: string): (r: string)
    ensures AllSafe(r)
    ensures '/' !in r
    ensures |r| <= |url|
  {
    Sanitize(ReplaceAll(ReplaceAll(ReplaceAll(url, "https://", ""), "http://", ""), "/", "_"))
  }

  /** The screenshot directory of one site in Crawler.py: both schemes removed
      and `/` replaced by `_`, without sanitising. */
  function ScreenshotDirName(url: string): (r: string)
    ensures '/' !in r
    ensures !Occurs(r, "http://") && !Occurs(r, "https://")
    ensures |r| <= |url|
    ensures forall c :: c in r ==> c in url || c == '_'
  {
    var noHttp := ReplaceAll(url, "http://", "");
    var noScheme := ReplaceAll(noHttp, "https://", "");
    var d := ReplaceAll(noScheme, "/", "_");
    ReplaceCharRemovesIt(noScheme, '/', '_');
    ReplaceAbsentIsIdentity(d, "http://", "", '/');
    ReplaceAbsentIsIdentity(d, "https://", "", '/');
    ReplaceAllChars(url, "http://", "");
    ReplaceAllChars(noHttp, "https://", "");
    ReplaceAllChars(noScheme, "/", "_");
    d
  }

  /** The `http://` pattern occurs nowhere in the `https://` scheme. */
  lemma HttpNotInHttps(h: string)
    ensures ReplaceAll("https://" + h, "http://", "") == "https://" + ReplaceAll(h, "http://", "")
  {
    var t := "https://" + h;
    forall i | 0 <= i < 8
      ensures !OccursAt(t, "http://", i)
    {
      if i == 0 {
        NoOccurrenceAt(t, "http://", i, 4);
      } else {
        NoOccurrenceAt(t, "http://", i, 0);
      }
    }
    ReplaceAllSkipPrefix(t, "http://", "", 8);
    assert t[..8] == "https://" && t[8..] == h;
  }

  /** The `https://` pattern occurs nowhere in the `http://` scheme. */
  lemma HttpsNotInHttp(h: string)
    ensures ReplaceAll("http://" + h, "https://", "") == "http://" + ReplaceAll(h, "https://", "")
  {
    var t := "http://" + h;
    forall i | 0 <= i < 7
      ensures !OccursAt(t, "https://", i)
    {
      if i == 0 {
        NoOccurrenceAt(t, "https://", i, 4);
      } else {
        NoOccurrenceAt(t, "https://", i, 0);
      }
    }
    ReplaceAllSkipPrefix(t, "https://", "", 7);
    assert t[..7] == "http://" && t[7..] == h;
  }

  /** Removing both schemes, in either order, from the `https://` scheme
      followed by a host part without `/` leaves the host part. */
  lemma SchemesRemovedHttps(h: string)
    requires '/' !in h
    ensures ReplaceAll(ReplaceAll("https://" + h, "https://", ""), "http://", "") == h
    ensures ReplaceAll(ReplaceAll("https://" + h, "http://", ""), "https://", "") == h
  {
    ReplaceAllFront("https://", h, "");
    assert "" + ReplaceAll(h, "https://", "") == ReplaceAll(h, "https://", "");
    ReplaceAbsentIsIdentity(h, "http://", "", '/');
    ReplaceAbsentIsIdentity(h, "https://", "", '/');
    HttpNotInHttps(h);
  }

  /** The same for the `http://` scheme. */
  lemma SchemesRemovedHttp(h: string)
    requires '/' !in h
    ensures ReplaceAll(ReplaceAll("http://" + h, "https://", ""), "http://", "") == h
    ensures ReplaceAll(ReplaceAll("http://" + h, "http://", ""), "https://", "") == h
  {
    ReplaceAllFront("http://", h, "");
    assert "" + ReplaceAll(h, "http://", "") == ReplaceAll(h, "http://", "");
    ReplaceAbsentIsIdentity(h, "http://", "", '/');
    ReplaceAbsentIsIdentity(h, "https://", "", '/');
    HttpsNotInHttp(h);
  }

  /** For a URL made of the `https://` scheme and a host part without `/`,
      crawler3.py's directory name is the sanitised host part. */
  lemma SiteDirStripsHttps(h: string)
    requires '/' !in h
    ensures SiteDirName("https://" + h) == Sanitize(h)
  {
    SchemesRemovedHttps(h);
    ReplaceAbsentIsIdentity(h, "/", "_", '/');
  }

  /** The same for the `http://` scheme. */
  lemma SiteDirStripsHttp(h: string)
    requires '/' !in h
    ensures SiteDirName("http://" + h) == Sanitize(h)
  {
    SchemesRemovedHttp(h);
    ReplaceAbsentIsIdentity(h, "/", "_", '/');
  }

  /** For a URL made of the `https://` scheme and a host part without `/`,
      Crawler.py's directory name is the host part itself. */
  lemma ScreenshotDirStripsHttps(h: string)
    requires '/' !in h
    ensures ScreenshotDirName("https://" + h) == h
  {
    SchemesRemovedHttps(h);
    ReplaceAbsentIsIdentity(h, "/", "_", '/');
  }

  /** The same for the `http://` scheme. */
  lemma ScreenshotDirStripsHttp(h: string)
    requires '/' !in h
    ensures ScreenshotDirName("http://" + h) == h
  {
    SchemesRemovedHttp(h);
    ReplaceAbsentIsIdentity(h, "/", "_", '/');
  }

  /** Distinct targets can share a directory in crawler3.py and in
      Crawler.py: the two schemes of one host, for one. */
  lemma DirNamesNotInjective(h: string)
    requires '/' !in h
    ensures "http://" + h != "https://" + h
    ensures SiteDirName("http://" + h) == SiteDirName("https://" + h)
    ensures ScreenshotDirName("http://" + h) == ScreenshotDirName("https://" + h)
  {
    SiteDirStripsHttp(h);
    SiteDirStripsHttps(h);
    ScreenshotDirStripsHttp(h);
    ScreenshotDirStripsHttps(h);
    assert ("http://" + h)[4] != ("https://" + h)[4];
  }

  function DigitChar(d: nat): (c: char)
    requires d < 10
    ensures '0' <= c <= '9'
  {
    ('0' as int + d) as char
  }

  function DigitValue(c: char): (d: nat)
    requires '0' <= c <= '9'
    ensures d < 10
    ensures DigitChar(d) == c
  {
    c as int - '0' as int
  }

  predicate AllDigits(s: string) {
    forall i :: 0 <= i < |s| ==> '0' <= s[i] <= '9'
  }

  /** Python's `str(n)` for a natural number. */
  function Decimal(n: nat): (r: string)
    ensures r != [] && AllDigits(r)
    ensures r[0] == '0' <==> n == 0
  {
    if n < 10 then [DigitChar(n)] else Decimal(n / 10) + [DigitChar(n % 10)]
  }

  /** Reads a string of decimal digits back as a number. */
  function DecimalValue(s: string): nat
    requires AllDigits(s)
  {
    if s == [] then 0 else DecimalValue(s[..|s| - 1]) * 10 + DigitValue(s[|s| - 1])
  }

  lemma {:induction false} DecimalRoundTrip(n: nat)
    ensures DecimalValue(Decimal(n)) == n
  {
    if n >= 10 {
      DecimalRoundTrip(n / 10);
      var s := Decimal(n);
      assert s[..|s| - 1] == Decimal(n / 10);
    }
  }

  /** The digit strings `str` produces: no leading zero, except "0" itself. */
  predicate Canonical(s: string) {
    s != [] && AllDigits(s) && (s[0] == '0' ==> s == "0")
  }

  /** A digit string with a non-zero first digit reads as a positive number. */
  lemma {:induction false} LeadingDigitPositive(s: string)
    requires s != [] && AllDigits(s) && s[0] != '0'
    ensures DecimalValue(s) >= 1
    decreases |s|
  {
    if |s| > 1 {
      LeadingDigitPositive(s[..|s| - 1]);
    }
  }

  /** The other half of the round trip: a canonical digit string is `str` of
      its own value. */
  lemma {:induction false} CanonicalRoundTrip(s: string)
    requires Canonical(s)
    ensures Decimal(DecimalValue(s)) == s
    decreases |s|
  {
    var t := s[..|s| - 1];
    var d := DigitValue(s[|s| - 1]);
    if |s| > 1 {
      assert t[0] == s[0] != '0';
      LeadingDigitPositive(t);
      CanonicalRoundTrip(t);
      var v := DecimalValue(s);
      assert v / 10 == DecimalValue(t) && v % 10 == d;
      assert s == t + [s[|s| - 1]];
    }
  }

  /** The name of the `n`-th screenshot of a site in crawler3.py: the decimal
      digits of `n`, which read back as `n`, then the `.png` extension. */
  function ScreenshotName(n: nat): (r: string)
    ensures |r| > 4 && r[|r| - 4..] == ".png"
    ensures AllDigits(r[..|r| - 4]) && DecimalValue(r[..|r| - 4]) == n
    ensures r[0] == '0' ==> r == "0.png"
  {
    var r := Decimal(n) + ".png";
    DecimalRoundTrip(n);
    assert r[..|r| - 4] == Decimal(n);
    r
  }

  lemma ScreenshotNamesDistinct(m: nat, n: nat)
    ensures ScreenshotName(m) == ScreenshotName(n) <==> m == n
  {
    if ScreenshotName(m) == ScreenshotName(n) {
      var a, b := Decimal(m), Decimal(n);
      assert |a| == |b|;
      assert a == ScreenshotName(m)[..|a|];
      assert b == ScreenshotName(n)[..|b|];
      DecimalRoundTrip(m);
      DecimalRoundTrip(n);
    }
  }
}

=== FILE: page_monitor.dfy ===
/** The change-detection loop of crawler3.py (`monitor_page_changes`).

    The browser is replaced by the finite sequence of what each loop pass
    observed: either a snapshot of the page (html, script list, network
    entries, current URL) with the time it was taken, or the navigation error
    that ends the loop, or any other fault, which ends the whole monitoring
    call. The wall-clock budget is the length of that sequence. */
module PageMonitor {
  import Names

  datatype Snapshot = Snapshot(html: string, js: string, network: string, url: string)

  /** One entry of the `changes` list: a timestamp and the snapshot. */
  datatype Change = Change(timestamp: string, snapshot: Snapshot)

  datatype Observation =
    | Observed(timestamp: string, snapshot: Snapshot)
    | NavigationError   // PageError or TimeoutError: the loop breaks
    | Fault             // any other exception: caught by the outer handler

  /** The loop state: the records so far, the baseline they are compared
      with, and the screenshot counter with the names written so far. */
  datatype Monitor = Monitor(
    changes: seq<Change>,
    previous: Snapshot,
    screenshotCount: nat,
    screenshots: seq<string>)

  /** Before the first pass the baseline is empty content at the target URL:
      a first snapshot differs from it exactly when it has some content or
      has left the target URL. */
  function Baseline(url: string): (b: Snapshot)
    ensures forall s :: Differs(b, s) <==> s.html != "" || s.js != "" || s.network != "" || s.url != url
  {
    Snapshot("", "", "", url)
  }

  function Start(url: string): (m: Monitor)
    ensures m.changes == [] && m.screenshotCount == 0
  {
    Monitor([], Baseline(url), 0, [])
  }

  /** Some of the four observed fields differ; as they are all a snapshot
      holds, that is the snapshots being different. */
  predicate Differs(a: Snapshot, b: Snapshot): (d: bool)
    ensures d <==> a != b
  {
    a.html != b.html || a.js != b.js || a.network != b.network || a.url != b.url
  }

  /** One pass over a snapshot: a record and a screenshot when something
      differs from the baseline, and the baseline moves with the record. */
  function Step(m: Monitor, timestamp: string, current: Snapshot): (m': Monitor)
    ensures Differs(m.previous, current) <==> |m'.changes| == |m.changes| + 1
    ensures Differs(m.previous, current) ==>
      m'.changes == m.changes + [Change(timestamp, current)]
      && m'.screenshotCount == m.screenshotCount + 1
      && m'.screenshots == m.screenshots + [Names.ScreenshotName(m.screenshotCount)]
    ensures !Differs(m.previous, current) ==> m' == m
    ensures m'.previous == current
  {
    if Differs(m.previous, current) then
      Monitor(
        m.changes + [Change(timestamp, current)],
        current,
        m.screenshotCount + 1,
        m.screenshots + [Names.ScreenshotName(m.screenshotCount)])
    else m
  }

  /** The first pass records the snapshot exactly when it has some content or
      has left the target URL. */
  lemma FirstObservationRecorded(url: string, t: string, s: Snapshot)
    ensures Run(Start(url), [Observed(t, s)]).changes
      == (if s.html != "" || s.js != "" || s.network != "" || s.url != url then [Change(t, s)] else [])
  {
    assert [Observed(t, s)][1..] == [];
  }

  /** The loop over the observations until the first error. */
  function Run(m: Monitor, obs: seq<Observation>): (m': Monitor)
    ensures |m.changes| <= |m'.changes| <= |m.changes| + |obs|
    ensures m'.changes[..|m.changes|] == m.changes
    decreases |obs|
  {
    if obs == [] then m
    else match obs[0]
      case Observed(t, s) => Run(Step(m, t, s), obs[1..])
      case NavigationError => m
      case Fault => m
  }

  /** `monitor_page_changes`: the records gathered before the budget ran out
      or an error stopped the loop, as a one-entry map keyed by the target. */
  function MonitorPageChanges(url: string, obs: seq<Observation>): (r: map<string, seq<Change>>)
    ensures r.Keys == {url}
    ensures |r[url]| <= |obs|
  {
    map[url := Run(Start(url), obs).changes]
  }

  /** The loop invariant: one screenshot per record, named by its position;
      the baseline is the last record (or the initial baseline); every record
      differs from the one before it. */
  ghost predicate Valid(url: string, m: Monitor) {
    && m.screenshotCount == |m.changes| == |m.screenshots|
    && (forall i :: 0 <= i < |m.screenshots| ==> m.screenshots[i] == Names.ScreenshotName(i))
    && m.previous == (if m.changes == [] then Baseline(url) else m.changes[|m.changes| - 1].snapshot)
    && (m.changes != [] ==> Differs(Baseline(url), m.changes[0].snapshot))
    && (forall i :: 0 < i < |m.changes| ==> Differs(m.changes[i - 1].snapshot, m.changes[i].snapshot))
  }

  lemma StepKeepsValid(url: string, m: Monitor, t: string, s: Snapshot)
    requires Valid(url, m)
    ensures Valid(url, Step(m, t, s))
  {
  }

  lemma {:induction false} RunKeepsValid(url: string, m: Monitor, obs: seq<Observation>)
    requires Valid(url, m)
    ensures Valid(url, Run(m, obs))
    decreases |obs|
  {
    if obs != [] && obs[0].Observed? {
      StepKeepsValid(url, m, obs[0].timestamp, obs[0].snapshot);
      RunKeepsValid(url, Step(m, obs[0].timestamp, obs[0].snapshot), obs[1..]);
    }
  }

  /** Whatever was observed, consecutive records differ, the counter equals
      the number of records and the screenshot names are pairwise distinct. */
  lemma MonitorInvariants(url: string, obs: seq<Observation>)
    ensures var m := Run(Start(url), obs);
      && m.screenshotCount == |m.changes|
      && (m.changes != [] ==> Differs(Baseline(url), m.changes[0].snapshot))
      && (forall i :: 0 < i < |m.changes| ==> Differs(m.changes[i - 1].snapshot, m.changes[i].snapshot))
      && (forall i, j :: 0 <= i < j < |m.screenshots| ==> m.screenshots[i] != m.screenshots[j])
  {
    RunKeepsValid(url, Start(url), obs);
    var m := Run(Start(url), obs);
    forall i, j | 0 <= i < j < |m.screenshots|
      ensures m.screenshots[i] != m.screenshots[j]
    {
      Names.ScreenshotNamesDistinct(i, j);
    }
  }

  /** The same snapshot observed twice in a row adds nothing the second time. */
  lemma {:induction false} RepeatedObservationIsNoOp(
    m: Monitor, t: string, t': string, s: Snapshot, rest: seq<Observation>)
    ensures Run(m, [Observed(t, s), Observed(t', s)] + rest) == Run(m, [Observed(t, s)] + rest)
  {
    var a := [Observed(t, s), Observed(t', s)] + rest;
    var b := [Observed(t, s)] + rest;
    var m1 := Step(m, t, s);
    assert a[1..] == [Observed(t', s)] + rest;
    assert a[1..][1..] == rest && b[1..] == rest;
    assert Step(m1, t', s) == m1;
  }

  /** An error ends the loop and keeps every record gathered before it. */
  lemma {:induction false} ErrorEndsLoop(m: Monitor, obs: seq<Observation>, k: nat)
    requires k < |obs| && !obs[k].Observed?
    ensures Run(m, obs) == Run(m, obs[..k])
    decreases k
  {
    if k > 0 && obs[0].Observed? {
      assert obs[1..][..k - 1] == obs[..k][1..];
      ErrorEndsLoop(Step(m, obs[0].timestamp, obs[0].snapshot), obs[1..], k - 1);
    }
  }

  lemma MonitorKeepsRecordsBeforeError(url: string, obs: seq<Observation>, k: nat)
    requires k < |obs| && !obs[k].Observed?
    ensures MonitorPageChanges(url, obs) == MonitorPageChanges(url, obs[..k])
  {
    ErrorEndsLoop(Start(url), obs, k);
  }

  predicate ErrorFree(obs: seq<Observation>) {
    forall i :: 0 <= i < |obs| ==> obs[i].Observed?
  }

  /** The snapshot an observation is compared with: the one observed just
      before it, or the initial baseline for the first. */
  function Predecessor(url: string, obs: seq<Observation>, i: nat): Snapshot
    requires i < |obs| && ErrorFree(obs)
  {
    if i == 0 then Baseline(url) else obs[i - 1].snapshot
  }

  /** Reference definition of the records: the observations that differ from
      the observation just before them, in order. */
  function ExpectedChanges(url: string, obs: seq<Observation>): seq<Change>
    requires ErrorFree(obs)
  {
    if obs == [] then []
    else
      var i := |obs| - 1;
      var earlier := ExpectedChanges(url, obs[..i]);
      if Differs(Predecessor(url, obs, i), obs[i].snapshot)
      then earlier + [Change(obs[i].timestamp, obs[i].snapshot)]
      else earlier
  }

  /** Running over a longer error-free list is one more step. */
  lemma {:induction false} RunSnoc(m: Monitor, obs: seq<Observation>, t: string, s: Snapshot)
    requires ErrorFree(obs)
    ensures Run(m, obs + [Observed(t, s)]) == Step(Run(m, obs), t, s)
    decreases |obs|
  {
    if obs == [] {
      assert ([Observed(t, s)])[1..] == [];
    } else {
      var o := obs[0];
      assert (obs + [Observed(t, s)])[1..] == obs[1..] + [Observed(t, s)];
      RunSnoc(Step(m, o.timestamp, o.snapshot), obs[1..], t, s);
    }
  }

  /** The monitor records exactly the reference changes: an observation is
      recorded iff it differs from the observation before it. The baseline
      therefore always equals the last observation, recorded or not. */
  lemma {:induction false} RunMatchesExpected(url: string, obs: seq<Observation>)
    requires ErrorFree(obs)
    ensures Run(Start(url), obs).changes == ExpectedChanges(url, obs)
    ensures Run(Start(url), obs).previous == (if obs == [] then Baseline(url) else obs[|obs| - 1].snapshot)
    decreases |obs|
  {
    if obs != [] {
      var i := |obs| - 1;
      var init := obs[..i];
      assert obs == init + [Observed(obs[i].timestamp, obs[i].snapshot)];
      RunMatchesExpected(url, init);
      RunSnoc(Start(url), init, obs[i].timestamp, obs[i].snapshot);
    }
  }
}

=== FILE: targets.dfy ===
/** The list of target sites read from a text file, one URL per line.
    crawler3.py strips every line and drops the ones that become empty;
    Crawler.py strips every line and keeps them all.

    Python's `str.strip` removes Unicode whitespace; this model knows the
    ASCII part of it: space, the controls 9 to 13 and the separators 28 to 31. */
module Targets {

  predicate IsSpace(c: char) {
    c == ' ' || (9 <= c as int <= 13) || (28 <= c as int <= 31)
  }

  predicate AllSpace(s: string) {
    forall i :: 0 <= i < |s| ==> IsSpace(s[i])
  }

  /** Leading whitespace removed. */
  function TrimStart(s: string): (r: string)
    ensures |r| <= |s|
    ensures r != [] ==> !IsSpace(r[0])
  {
    if s != [] && IsSpace(s[0]) then TrimStart(s[1..]) else s
  }

  /** Trailing whitespace removed. */
  function TrimEnd(s: string): (r: string)
    ensures r <= s
    ensures r != [] ==> !IsSpace(r[|r| - 1])
  {
    if s != [] && IsSpace(s[|s| - 1]) then TrimEnd(s[..|s| - 1]) else s
  }

  /** What `TrimStart` removes is whitespace, and what it keeps is a suffix. */
  lemma {:induction false} TrimStartDropsSpace(s: string)
    ensures TrimStart(s) == s[|s| - |TrimStart(s)|..]
    ensures AllSpace(s[..|s| - |TrimStart(s)|])
  {
    if s != [] && IsSpace(s[0]) {
      TrimStartDropsSpace(s[1..]);
      var n := |s| - |TrimStart(s)|;
      assert s[1..][..n - 1] == s[1..n];
      assert forall k :: 0 < k < n ==> s[..n][k] == s[1..n][k - 1];
    }
  }

  /** What `TrimEnd` removes is whitespace. */
  lemma {:induction false} TrimEndDropsSpace(s: string)
    ensures AllSpace(s[|TrimEnd(s)|..])
  {
    if s != [] && IsSpace(s[|s| - 1]) {
      var t := s[..|s| - 1];
      TrimEndDropsSpace(t);
      var n := |TrimEnd(s)|;
      assert forall k :: n <= k < |t| ==> s[k] == t[k];
      assert forall k :: 0 <= k < |s| - n ==> s[n..][k] == s[n + k];
    }
  }

  /** `r` is the part of `s` from index `i` on, with only whitespace around it. */
  predicate StrippedAt(s: string, r: string, i: int) {
    0 <= i && i + |r| <= |s| && s[i..i + |r|] == r
    && AllSpace(s[..i]) && AllSpace(s[i + |r|..])
  }

  /** Neither end of `s` is whitespace. */
  predicate IsStripped(s: string) {
    s != [] ==> !IsSpace(s[0]) && !IsSpace(s[|s| - 1])
  }

  /** Python's `str.strip()` with no argument. */
  function Strip(s: string): (r: string)
    ensures |r| <= |s|
    ensures IsStripped(r)
  {
    TrimEnd(TrimStart(s))
  }

  /** The stripped line is a slice of the line with nothing but whitespace
      around it. */
  lemma StripIsTrimmedSlice(s: string)
    ensures exists i :: 0 <= i <= |s| && StrippedAt(s, Strip(s), i)
  {
    var a := TrimStart(s);
    var r := TrimEnd(a);
    TrimStartDropsSpace(s);
    TrimEndDropsSpace(a);
    var i := |s| - |a|;
    assert a == s[i..];
    assert a[..|r|] == s[i..i + |r|];
    assert a[|r|..] == s[i + |r|..];
    assert StrippedAt(s, r, i);
    assert r == Strip(s);
  }

  /** A line strips to nothing exactly when it is all whitespace. */
  lemma StripEmptyIffBlank(s: string)
    ensures Strip(s) == [] <==> AllSpace(s)
  {
    var r := Strip(s);
    StripIsTrimmedSlice(s);
    var i :| 0 <= i <= |s| && StrippedAt(s, r, i);
    if r == [] {
      assert s == s[..i] + s[i..];
      forall k | 0 <= k < |s|
        ensures IsSpace(s[k])
      {
        if k < i {
          assert s[..i][k] == s[k];
        } else {
          assert s[i..][k - i] == s[k];
        }
      }
    } else {
      assert s[i..i + |r|][0] == s[i];
    }
  }

  /** A string without whitespace at either end is its own strip. */
  lemma StrippedIsFixed(s: string)
    requires IsStripped(s)
    ensures Strip(s) == s
  {
    assert TrimStart(s) == s;
    assert TrimEnd(s) == s;
  }

  /** Stripping twice is stripping once. */
  lemma StripIdempotent(s: string)
    ensures Strip(Strip(s)) == Strip(s)
  {
    StrippedIsFixed(Strip(s));
  }

  /** The entries of `lines[i..]` that crawler3.py keeps. */
  function ParseFrom(lines: seq<string>, i: nat): (r: seq<string>)
    requires i <= |lines|
    ensures |r| <= |lines| - i
    ensures forall k :: 0 <= k < |r| ==> r[k] != [] && IsStripped(r[k])
    decreases |lines| - i
  {
    if i == |lines| then []
    else
      var line := Strip(lines[i]);
      var rest := ParseFrom(lines, i + 1);
      if line != [] then [line] + rest else rest
  }

  /** crawler3.py's website list: every line stripped, empty results dropped. */
  function ParseTargets(lines: seq<string>): (r: seq<string>)
    ensures |r| <= |lines|
    ensures forall k :: 0 <= k < |r| ==> r[k] != [] && IsStripped(r[k])
  {
    ParseFrom(lines, 0)
  }

  /** The indices, from `i` on, of the lines that are not all whitespace. */
  function KeptFrom(lines: seq<string>, i: nat): (r: seq<nat>)
    requires i <= |lines|
    ensures forall k :: 0 <= k < |r| ==> i <= r[k] < |lines| && !AllSpace(lines[r[k]])
    ensures forall k, l :: 0 <= k < l < |r| ==> r[k] < r[l]
    decreases |lines| - i
  {
    if i == |lines| then []
    else
      var rest := KeptFrom(lines, i + 1);
      if !AllSpace(lines[i]) then
        var r := [i] + rest;
        assert forall k :: 0 < k < |r| ==> r[k] == rest[k - 1];
        r
      else rest
  }

  /** Every line that is not all whitespace is kept. */
  lemma {:induction false} KeptFromComplete(lines: seq<string>, i: nat)
    requires i <= |lines|
    ensures forall j :: i <= j < |lines| && !AllSpace(lines[j]) ==> j in KeptFrom(lines, i)
    decreases |lines| - i
  {
    if i < |lines| {
      KeptFromComplete(lines, i + 1);
    }
  }

  /** One line of the parse and of the kept indices. */
  lemma ParseFromUnfold(lines: seq<string>, i: nat)
    requires i < |lines|
    ensures AllSpace(lines[i]) ==>
      ParseFrom(lines, i) == ParseFrom(lines, i + 1) && KeptFrom(lines, i) == KeptFrom(lines, i + 1)
    ensures !AllSpace(lines[i]) ==>
      ParseFrom(lines, i) == [Strip(lines[i])] + ParseFrom(lines, i + 1)
      && KeptFrom(lines, i) == [i] + KeptFrom(lines, i + 1)
  {
    StripEmptyIffBlank(lines[i]);
  }

  /** The stripped lines at the given indices, in the order of the indices. */
  function StrippedAtIndices(lines: seq<string>, idx: seq<nat>): (r: seq<string>)
    requires forall k :: 0 <= k < |idx| ==> idx[k] < |lines|
    ensures |r| == |idx|
    ensures forall k :: 0 <= k < |idx| ==> r[k] == Strip(lines[idx[k]])
  {
    if idx == [] then []
    else
      var rest := StrippedAtIndices(lines, idx[1..]);
      var r := [Strip(lines[idx[0]])] + rest;
      assert forall k :: 0 < k < |idx| ==> r[k] == rest[k - 1] && idx[k] == idx[1..][k - 1];
      r
  }

  lemma StrippedAtIndicesCons(lines: seq<string>, j: nat, idx: seq<nat>)
    requires j < |lines|
    requires forall k :: 0 <= k < |idx| ==> idx[k] < |lines|
    ensures StrippedAtIndices(lines, [j] + idx) == [Strip(lines[j])] + StrippedAtIndices(lines, idx)
  {
    assert ([j] + idx)[1..] == idx;
  }

  /** The step of the induction below: a line that is kept adds its
      stripped form in front. */
  lemma KeepsOrderStep(lines: seq<string>, i: nat)
    requires i < |lines|
    requires ParseFrom(lines, i + 1) == StrippedAtIndices(lines, KeptFrom(lines, i + 1))
    ensures ParseFrom(lines, i) == StrippedAtIndices(lines, KeptFrom(lines, i))
  {
    ParseFromUnfold(lines, i);
    if !AllSpace(lines[i]) {
      StrippedAtIndicesCons(lines, i, KeptFrom(lines, i + 1));
    }
  }

  /** The parsed list is, in order, the stripped form of exactly the lines
      that are not all whitespace. */
  lemma {:induction false} ParseFromKeepsOrder(lines: seq<string>, i: nat)
    requires i <= |lines|
    ensures ParseFrom(lines, i) == StrippedAtIndices(lines, KeptFrom(lines, i))
    decreases |lines| - i
  {
    if i < |lines| {
      ParseFromKeepsOrder(lines, i + 1);
      KeepsOrderStep(lines, i);
    }
  }

  lemma ParseTargetsKeepsOrder(lines: seq<string>)
    ensures ParseTargets(lines) == StrippedAtIndices(lines, KeptFrom(lines, 0))
  {
    ParseFromKeepsOrder(lines, 0);
  }

  /** Crawler.py's website list: every line stripped, blank lines kept. */
  function StripLines(lines: seq<string>): (r: seq<string>)
    ensures |r| == |lines|
    ensures forall k :: 0 <= k < |r| ==> r[k] == Strip(lines[k]) && IsStripped(r[k])
  {
    if lines == [] then []
    else
      var rest := StripLines(lines[1..]);
      var r := [Strip(lines[0])] + rest;
      assert forall k :: 0 < k < |r| ==> r[k] == rest[k - 1] && lines[k] == lines[1..][k - 1];
      r
  }

  function RemoveEmpty(xs: seq<string>): (r: seq<string>)
    ensures forall k :: 0 <= k < |r| ==> r[k] != []
  {
    if xs == [] then []
    else if xs[0] != [] then [xs[0]] + RemoveEmpty(xs[1..])
    else RemoveEmpty(xs[1..])
  }

  /** The two readings of the target file differ only in the blank lines. */
  lemma {:induction false} ParseIsFilteredStripLines(lines: seq<string>, i: nat)
    requires i <= |lines|
    ensures ParseFrom(lines, i) == RemoveEmpty(StripLines(lines[i..]))
    decreases |lines| - i
  {
    if i < |lines| {
      ParseIsFilteredStripLines(lines, i + 1);
      assert lines[i..][1..] == lines[i + 1..];
    }
  }

  lemma ParseTargetsIsFilteredStripLines(lines: seq<string>)
    ensures ParseTargets(lines) == RemoveEmpty(StripLines(lines))
  {
    ParseIsFilteredStripLines(lines, 0);
    assert lines[0..] == lines;
  }
}
